=== FILE: README.md ===
# A model of a persistent-session Python execution service

The service runs untrusted Python code for HTTP clients. Each client session
owns a worker process with a persistent interpreter namespace. A registry
caps the number of sessions, dispatches each request to a new or an existing
session, and sweeps away sessions left idle too long. The supervising side of
a session sends the code to its worker and waits a bounded time for the
reply. It classifies what happens as the worker's own output or one of a
fixed set of errors: memory limit exceeded, session crashed, execution
timeout, internal server error. A memory limiter installs a kernel
address-space limit on Linux; elsewhere a polling monitor,
`monitor_process_windows`, is meant to enforce a deadline and a
resident-memory ceiling (as wired in `session_process.py` it cannot call back;
see "## Left out"). A capability filter rebinds the general
`open`, the mutating `os` operations and the connection-making network
primitives so that calling them raises a permission error. The request and
response models bound the code length and refuse a response that carries
both an error and output.

The Dafny modules follow the source files:

- `Common` (common.dfy): the `(stdout, stderr, error)` triple, the error
  texts, `Option`/`Result`, and the namespace.
- `Request`, `Response` (request.dfy, response.dfy): `app/models/`.
- `MemoryLimiter` (memory_limiter.dfy): `set_limit_linux` and
  `monitor_process_windows`. The monitor is a method with a loop, proved
  against the recursive function `Monitor`.
- `Sandbox` (sandbox.dfy): the filter. The class `Environment` holds the
  tables the filter rewrites in place: the namespace, `__builtins__`, and the
  attribute tables of `os`, `socket`, `urllib.request` and `http.client`.
  Its methods are proved equal to pure functions on a `Tables` value, and the
  lemmas are stated about those functions.
- `Process` (process.dfy): `session_process.py`. `WorkerProcess` is the
  worker's loop. `SessionProcess` is the supervising side. Each is a class
  whose methods are proved equal to pure step functions (`WorkerStep`,
  `Serve`, `ExecuteSpec`, `TerminateSpec`).
- `Manager` (manager.dfy): `session_manager.py`. `SessionManager` holds the
  registry and the lock map, and is proved against `RegistryExecute` and
  `Sweep`.

The environment is made of parameters:

- The interpreter is a function from namespace and source text to an
  `Evaluation`: completed, raised an `Exception`, or ended the process.
- When the reply arrives, and whether the memory monitor fired during the
  wait, form a `Wait` value.
- The clock is an integer `now`.
- The `uuid4` result is `CallContext.freshId`.
- The platform test is `isLinux`, and whether `setrlimit` succeeds is
  `setrlimitAccepted`.

On the success path `execute` returns the reply without reading the memory
flag again (`session_process.py:76-79`). A flag set during a call whose reply
arrives in time therefore shows up only on the next call;
`Process.LateFlagSurfacesNextCall` states this.

## Model

| member | source | states |
|---|---|---|
| Common.NoneIfEmpty | app/services/session_process.py:164-165 | an empty buffer is reported as absent, a non-empty one as itself |
| Request.ParseRequest | app/models/request.py:4-11 | a body is accepted exactly when `code` is present with 1 to 10000 characters; otherwise the error says whether it is missing, too short or too long; an accepted request carries the code unchanged |
| Request.LengthBoundsInclusive | app/models/request.py:8-9 | both length bounds are inclusive: 1 and 10000 pass, 0 and 10001 are refused with the matching error |
| Response.CheckMutualExclusivity | app/models/response.py:10-21 | the response passes exactly when it has no error or has neither stdout nor stderr; passing returns it unchanged, failing gives the fixed message |
| Response.DefaultResponseAccepted | app/models/response.py:6-8 | the all-defaults response passes validation |
| Response.ErrorAloneOrOutputAloneAccepted | app/models/response.py:13-19 | an error alone passes, output without an error passes, and an error together with any output is refused |
| MemoryLimiter.MemoryLimitBytes | app/services/memory_limiter.py:26 | the byte count is a whole number of MiB, equal to the megabyte argument |
| MemoryLimiter.LinuxAddressSpaceLimit | app/services/memory_limiter.py:13-27 | the `RLIMIT_AS` pair has equal soft and hard limits of exactly `memory_mb` MiB |
| MemoryLimiter.SameThresholdAsKernelLimit | app/services/memory_limiter.py:26-70 | within the deadline the monitor kills for memory exactly when the resident set exceeds the hard limit `set_limit_linux` installs for the same budget |
| MemoryLimiter.Poll | app/services/memory_limiter.py:55-72 | one poll kills for timeout exactly when elapsed exceeds the deadline; kills for memory exactly when within the deadline and the RSS exceeds the limit; stops polling exactly when within the deadline and the process has vanished |
| MemoryLimiter.Finished | app/services/memory_limiter.py:77-82 | a finished process yields its captured stdout and stderr, each absent exactly when empty, with no error |
| MemoryLimiter.Monitor | app/services/memory_limiter.py:30-82 | the definition of the monitor's result for a trace of polls (no contract of its own): the first poll that is not `KeepPolling` decides, an exhausted trace means the process finished; `MonitorProcess` is proved to compute it, and `MonitorTimeoutExactly`, `MonitorMemoryExactly`, `MonitorWithoutViolationFinishes`, `MonitorOutcomeShapes` and `TimeoutCheckedBeforeMemory` state its properties |
| MemoryLimiter.MonitorProcess | app/services/memory_limiter.py:30-82 | the loop returns the `Monitor` result of the trace; it kills exactly when the result carries an error; an error never comes with output |
| MemoryLimiter.MonitorTimeoutExactly | app/services/memory_limiter.py:54-61 | the result is the timeout error iff some poll is past the deadline and every earlier poll let the loop continue |
| MemoryLimiter.MonitorMemoryExactly | app/services/memory_limiter.py:63-70 | the result is the memory error iff some poll decides to kill for memory and every earlier poll let the loop continue |
| MemoryLimiter.MonitorWithoutViolationFinishes | app/services/memory_limiter.py:54-82 | when every poll is within the deadline and at or under the limit (equality included), the process's own output is returned with no error |
| MemoryLimiter.MonitorOutcomeShapes | app/services/memory_limiter.py:30-82 | the result is the process output, the timeout error or the memory error, and nothing else |
| MemoryLimiter.TimeoutCheckedBeforeMemory | app/services/memory_limiter.py:57-70 | a poll that is both late and over the limit is reported as a timeout |
| Sandbox.DeniedMessage | app/services/sandbox.py:23-30 | every stub message starts with `[Errno 13] Permission denied`, and without arguments it is exactly that text |
| Sandbox.DeniedResource | app/services/sandbox.py:28 | a resource read back from a message is exactly the one quoted in it |
| Sandbox.DeniedMessageNamesResource | app/services/sandbox.py:26-30 | a stub's message names its first argument exactly, and names nothing when called without arguments |
| Sandbox.OpenAllowed | app/services/sandbox.py:51 | the definition of the `safe_open` gate (no contract of its own): a `/proc/` path and a mode with `r` and none of `w`, `a`, `+`; `SafeOpenDelegatesExactlyWhenAllowed` and `OpenGateExamples` state its properties |
| Sandbox.Invoke | app/services/sandbox.py:23-55 | a stub always raises the permission error for its arguments; `safe_open` with a file either delegates or raises the error naming that file |
| Sandbox.SafeOpenDelegatesExactlyWhenAllowed | app/services/sandbox.py:46-55 | `safe_open` behaves as the real `open` iff the path starts with `/proc/` and the mode (default `r`) reads without writing, appending or updating; otherwise it raises what a stub raises |
| Sandbox.OpenGateExamples | app/services/sandbox.py:46-51 | with the default mode or `rb` exactly `/proc/` paths open; `w`, `a` and `r+` are refused everywhere |
| Sandbox.StubIfPresent | app/services/sandbox.py:116-117 | a present name becomes a stub, an absent one is not added, every other attribute is kept |
| Sandbox.StubListed | app/services/sandbox.py:115-117 | stubbing the listed names adds and removes no attribute |
| Sandbox.BindModules | app/services/sandbox.py:120-124 | binding modules adds exactly the module names to the namespace |
| Sandbox.BindModulesBinds | app/services/sandbox.py:120-124 | each bound name refers to the module of that name and every other entry keeps its value |
| Sandbox.BindFilesystemModules | app/services/sandbox.py:120-124 | binding `os` then `pathlib` binds exactly the filesystem modules |
| Sandbox.BindNetworkModules | app/services/sandbox.py:149-170 | binding `socket`, then `urllib` and `http` when they import, binds exactly the network modules |
| Sandbox.BlockFilesystemTables | app/services/sandbox.py:74-124 | afterwards the `open` the namespace sees is `safe_open`, whether `__builtins__` is a dict of its own, the builtins module's own dict, the module or missing; in every case but the first the builtins module's `open` is rebound process-wide, in the first the module is untouched; the network tables are untouched |
| Sandbox.BlockNetworkTables | app/services/sandbox.py:127-172 | the network half leaves `os` and the builtins untouched |
| Sandbox.SandboxTables | app/services/sandbox.py:60-71 | the definition of the whole filter (no contract of its own): the filesystem half, then the network half; `Environment.ApplySandboxToNamespace` is proved to compute it, and `SandboxDeniesBlockedPrimitives`, `SandboxKeepsOtherOsAttributes`, `SafeOsServicesSurvive` and `SandboxNamespaceKeys` state its properties |
| Sandbox.SandboxDeniesBlockedPrimitives | app/services/sandbox.py:60-172 | after the filter `open` is `safe_open`; every present blacklisted `os` name and `socket.socket` raise the permission error naming their first argument; `create_connection`/`create_server` (when present), `urlopen`, `urlretrieve` (when present), `HTTPConnection` and `HTTPSConnection` are stubs |
| Sandbox.SandboxKeepsOtherOsAttributes | app/services/sandbox.py:115-117 | the filter adds no `os` attribute and keeps every one off the blacklist |
| Sandbox.SafeOsServicesUnlisted | app/services/sandbox.py:83-113 | `getcwd`, `cpu_count`, `path` and `getpid` are not on the blacklist |
| Sandbox.SafeOsServicesSurvive | app/services/sandbox.py:83-117 | those read-only `os` services keep their original binding after the filter |
| Sandbox.SandboxModulesListed | app/services/sandbox.py:120-170 | `os`, `pathlib` and `socket` are always bound; `urllib` and `http` exactly when they import; nothing else |
| Sandbox.SandboxNamespaceKeys | app/services/sandbox.py:120-170 | the filtered namespace is the old one plus the bound modules, each bound to its module, every other name kept |
| Sandbox.StubListedIdempotent | app/services/sandbox.py:115-117 | stubbing the same names again changes nothing |
| Sandbox.BindModulesIdempotent | app/services/sandbox.py:120-170 | binding the same modules again changes nothing |
| Sandbox.Environment.BlockFilesystem | app/services/sandbox.py:74-124 | the in-place rewrite (loop over the blacklist, `open` replacement, module bindings) yields `BlockFilesystemTables` of the old state |
| Sandbox.Environment.BlockNetwork | app/services/sandbox.py:127-172 | the in-place rewrite yields `BlockNetworkTables` of the old state |
| Sandbox.Environment.ApplySandboxToNamespace | app/services/sandbox.py:60-71 | the filesystem half then the network half, i.e. `SandboxTables` of the old state |
| Process.ShapeReply | app/services/session_process.py:151-183 | a reply is sent unless the code ended the process; its error slot is always empty; a completion reports both buffers, each absent when empty; a fault reports no stdout, and as stderr what was captured or else the traceback |
| Process.InitialWorker | app/services/session_process.py:125-133 | a new worker runs with the interpreter's initial locals, exactly `__name__` (bound to `'__console__'`) and `__doc__`; it holds an address-space limit of 100 MiB exactly when on Linux and `setrlimit` succeeded |
| Process.WorkerStep | app/services/session_process.py:137-183 | the definition of one turn of the worker loop (no contract of its own); `WorkerProcess.Step` is proved to compute it and `WorkerStepReplies` states its properties |
| Process.Serve | app/services/session_process.py:136-187 | the definition of the worker loop over a sequence of commands (no contract of its own); `WorkerProcess.ServeAll` is proved to compute it, and `ServeRepliesErrorFree`, `ServeSurvivesFaults` and `ServeStopsAtReceiveFailure` state its properties |
| Process.WorkerStepReplies | app/services/session_process.py:136-187 | a turn replies unless the receive fails or the code ends the process, and then the worker is gone; after a reply the worker keeps running with the namespace the code left; the limit never changes; replies carry no error |
| Process.ServeRepliesErrorFree | app/services/session_process.py:136-187 | the loop sends at most one reply per command and none carries an error classification |
| Process.ServeSurvivesFaults | app/services/session_process.py:169-183 | in a run where every receive succeeds and no command's code ends the process (evaluated against the namespace the earlier commands left), faults raised by the code do not end the loop: the worker stays alive and answers every command |
| Process.ServeStopsAtReceiveFailure | app/services/session_process.py:185-187 | a failed receive ends the worker; nothing from that command on is answered |
| Process.WorkerProcess.constructor | app/services/session_process.py:125-133 | the started worker is in the `InitialWorker` state: running, with the interpreter's initial locals and the limit when installed |
| Process.WorkerProcess.Step | app/services/session_process.py:137-183 | one turn updates the worker and replies as `WorkerStep` says |
| Process.WorkerProcess.ServeAll | app/services/session_process.py:136-187 | the loop's final state and replies are those of `Serve` |
| Process.WorkerProcess.Stop | app/services/session_process.py:84-87 | the worker is stopped; it is killed exactly when it was running and did not exit within the grace period |
| Process.InitialSession | app/services/session_process.py:25-39 | a new session is stamped with the current time, unflagged, with open channels and a running worker |
| Process.ExecuteSpec | app/services/session_process.py:53-98 | the definition of `execute` on a session state (no contract of its own): the flag, then liveness, then closed channels, then send and wait; `SessionProcess.Execute` is proved to compute it, and the lemmas from `MemoryFlagAnswersFirst` to `DeathBetweenCallsAnswersCrashed` state its properties |
| Process.TerminateSpec | app/services/session_process.py:100-110 | a terminated session has no running worker and closed channels; time, flag and namespace are kept |
| Process.MemoryFlagAnswersFirst | app/services/session_process.py:63-65 | a flagged session answers the memory error and changes nothing |
| Process.DeadWorkerAnswersCrashed | app/services/session_process.py:67-69 | an unflagged session with a dead worker answers "session crashed" and changes nothing |
| Process.InTimeReplyPassesThrough | app/services/session_process.py:71-79 | a reply arriving in time is returned exactly as the worker shaped it, error-free; the worker keeps running with the new namespace |
| Process.MissedReplyStopsWorker | app/services/session_process.py:81-93 | with no reply in time the worker is stopped and the answer is the memory error if the flag was set during the wait, the timeout otherwise |
| Process.ExecuteOutcomes | app/services/session_process.py:53-98 | every answer is error-free output or one of the four classified errors without output |
| Process.ExecuteAnswersAreValidResponses | app/services/session_process.py:53-98 | every answer passes the response's mutual-exclusion check |
| Process.ExecuteKeepsAccessTimeAndDeath | app/services/session_process.py:53-98 | `execute` never changes the access time; a dead worker stays dead and leaves the session unchanged; the flag is never cleared |
| Process.TimeoutIsTerminal | app/services/session_process.py:68-93 | after a timeout the next call answers exactly "session crashed" with nothing changed, or the memory error if the callback set the flag in between |
| Process.MemoryErrorIsSticky | app/services/session_process.py:63-91 | once a call answers the memory error, the next call answers it again and changes nothing |
| Process.ChannelFailuresAnswerInternalError | app/services/session_process.py:71-98 | a channel failing during the wait, or a closed channel with the worker running, is answered exactly "Internal server error" (the closed channel with nothing changed) |
| Process.LateFlagSurfacesNextCall | app/services/session_process.py:63-79 | a flag set during a call whose reply arrives in time does not change that answer; the next call answers the memory error |
| Process.TerminatedSessionRefuses | app/services/session_process.py:100-110 | a terminated session never runs code again and answers the memory error or "session crashed" |
| Process.WorkerDies | app/services/session_process.py:67-69 | a worker ending on its own between calls is no longer running; time, flag, channels, namespace and limit are kept |
| Process.DeathBetweenCallsAnswersCrashed | app/services/session_process.py:67-79 | after a call answered in time, a worker that dies before the next call makes that call answer exactly "session crashed", with nothing sent and nothing changed |
| Process.FreshSessionRunsCode | app/services/session_process.py:25-98 | a new session's first code is evaluated against the interpreter's initial locals; an in-time reply is returned as the worker shaped it; any error is the memory error, the timeout or "Internal server error", never "session crashed"; a worker still running holds the namespace the code left; the limit is kept |
| Process.SessionProcess.constructor | app/services/session_process.py:25-39 | the new session is in the `InitialSession` state with a fresh worker |
| Process.SessionProcess.OnMemoryExceeded | app/services/session_process.py:43-44 | the callback sets the flag and changes nothing else |
| Process.SessionProcess.Execute | app/services/session_process.py:53-98 | the new session state and the answer are those of `ExecuteSpec` |
| Process.SessionProcess.Terminate | app/services/session_process.py:100-110 | the session ends in the `TerminateSpec` state |
| Manager.RegistryExecute | app/services/session_manager.py:44-81 | the definition of the registry's `execute` (no contract of its own): create or refuse, then not found, then stamp and run; `SessionManager.Execute` is proved to compute it, and the lemmas from `RegistryStaysCapped` to `RegistryAnswersAreValidResponses` state its properties |
| Manager.RegistryStaysCapped | app/services/session_manager.py:90-105 | the registry never grows past 40 sessions |
| Manager.CreationRefusedExactlyWhenFull | app/services/session_manager.py:59-63 | a request without an id is refused with "max sessions reached" iff 40 sessions exist; a refusal changes nothing and returns an empty id |
| Manager.CreationAddsOneFreshSession | app/services/session_manager.py:83-105 | a creation adds exactly the fresh id, keeps every other session, and runs the code in the new session, never answering "session crashed" or "session not found" |
| Manager.UnknownIdIsEchoed | app/services/session_manager.py:65-67 | an unknown id is answered "session not found", echoing the id, with nothing changed |
| Manager.KnownIdRunsInItsSession | app/services/session_manager.py:69-81 | a known id stamps that session's access time and runs the code in it, returning its triple and the same id; no other session changes |
| Manager.RegistryAnswersAreValidResponses | app/services/session_manager.py:44-81 | every answer of the registry passes the response's mutual-exclusion check |
| Manager.IsStale | app/services/session_manager.py:120 | the definition of staleness (no contract of its own): idle strictly longer than 60 seconds; `SweepBoundaryIsStrict` states the boundary |
| Manager.Sweep | app/services/session_manager.py:113-124 | the sweep keeps exactly the sessions idle for at most 60 seconds, unchanged |
| Manager.SweepBoundaryIsStrict | app/services/session_manager.py:120 | a session idle exactly 60 seconds survives; one idle 61 seconds is removed |
| Manager.SweptIdIsNotFound | app/services/session_manager.py:113-124 | a request naming a swept id is answered "session not found" |
| Manager.SweepIdempotent | app/services/session_manager.py:113-124 | a second sweep at the same time removes nothing more; a sweep never grows the registry |
| Manager.SessionManager.constructor | app/services/session_manager.py:25-42 | the manager starts with no sessions and no locks |
| Manager.SessionManager.CreateSession | app/services/session_manager.py:83-105 | refuses exactly at the cap without change; otherwise adds the fresh id with a new session and a lock; the two maps keep equal keys |
| Manager.SessionManager.Execute | app/services/session_manager.py:44-81 | the new registry, the triple and the id are those of `RegistryExecute`; the cap and key agreement are kept |
| Manager.SessionManager.RemoveSession | app/services/session_manager.py:126-140 | the id leaves both maps; a present session is returned terminated; an absent id changes nothing |
| Manager.SessionManager.CleanupStaleSessions | app/services/session_manager.py:113-124 | the loop removing each stale id leaves exactly `Sweep` of the old registry |

## Left out

- Concurrency: the manager lock, the per-session locks, the monitor thread and the cleanup thread. Calls are modelled one at a time, so a lock (`Manager.Lock`) carries no state.
- The singleton `__new__`, the `initialized` guard and `_cleanup_loop`: they only schedule `_cleanup_stale_sessions` every 60 seconds.
- Process creation and the two queues. The worker's `exec` with swapped stdout/stderr is the `Interpreter` function. The queue's timing is the `Arrival` in a `Wait`.
- `kill` is taken to end the process. Whether `terminate` works within the one-second grace period is a parameter.
- `uuid4` is the `freshId` of a call, required not to be in use.
- Wall-clock time as a float: the model uses an integer `now` and integer elapsed seconds. The 0.1 s poll sleep is left out.
- `psutil` and `resource.setrlimit` themselves. The RSS readings are the monitor's trace; the kernel's acceptance of the limit is `setrlimitAccepted`.
- `platform_utils.is_linux` is the `isLinux` parameter. platform_utils.py is not part of this model.
- Process.SessionProcess.OnMemoryExceeded: `__init__` starts the Windows monitor with the callback in the timeout argument and a `multiprocessing.Process` that has no `poll`. As written, the monitor can never call the callback. The model keeps the flag an external input (`OnMemoryExceeded`, `Wait.monitorFired`) and does not tie it to `MemoryLimiter.Monitor`.
- Sandbox.Invoke: keyword arguments to stubs and to `safe_open` are not modelled. Arguments are their `str` renderings, and a non-string mode is not modelled.
- A worker dying on its own is a separate step between calls (`Process.WorkerDies`); its death during a call is covered by the reply arriving too late or the code ending the process. The registry does not apply `WorkerDies` to its sessions by itself.
- The worker never calls `apply_sandbox_to_namespace`, so the model does not link the filter to the worker's namespace.
- Manager.SessionManager: sessions are held as `SessionState` values rather than `SessionProcess` references. `Execute` and `RemoveSession` therefore go through `Process.ExecuteSpec` and `Process.TerminateSpec`, which the `SessionProcess` methods are proved to implement, rather than calling those methods.
- Manager.SessionManager.RemoveSession: the grace-period outcome of `terminate` is not a parameter, since the terminated state is the same either way.
- Sandbox.SandboxTables: idempotence and commutation of the two halves of the filter are stated only per table (`StubListedIdempotent`, `BindModulesIdempotent`), not for the whole state.
- The success path of `execute` returns a reply without reading the memory flag again, so a flag set during that call is reported by the next one (see `Process.LateFlagSurfacesNextCall`).
- `executor.py`, the HTTP route, `main.py` and `run.py`: they are outside the execution core.

=== FILE: common.dfy ===
/** Values shared by every component of the code-execution service: optional
    values, the (stdout, stderr, error) triple every execution path returns,
    the fixed error classifications, and the execution namespace. */
module Common {

  datatype Option<+T> = None | Some(value: T) {
    function GetOr(default: T): T {
      match this
      case Some(v) => v
      case None => default
    }
  }

  datatype Result<+T, +E> = Ok(value: T) | Err(error: E)

  /** The `(stdout, stderr, error)` triple returned by a session, a worker and the monitor. */
  datatype Triple = Triple(stdout: Option<string>, stderr: Option<string>, error: Option<string>)

  // The structured error classifications, as the service spells them.
  const MAX_SESSIONS_REACHED := "max sessions reached"
  const SESSION_NOT_FOUND := "session not found"
  const MEMORY_LIMIT_EXCEEDED := "memory limit exceeded"
  const SESSION_CRASHED := "session crashed"
  const EXECUTION_TIMEOUT := "execution timeout"
  const INTERNAL_SERVER_ERROR := "Internal server error"

  /** A triple that carries only an error classification. */
  function ErrorTriple(e: string): (t: Triple)
    ensures t.error == Some(e) && t.stdout.None? && t.stderr.None?
  {
    Triple(None, None, Some(e))
  }

  /** Python's `s if s else None`: an empty captured buffer is reported as absent. */
  function NoneIfEmpty(s: string): (r: Option<string>)
    ensures r.Some? <==> s != ""
    ensures r.GetOr("") == s
  {
    if s == "" then None else Some(s)
  }

  /** A value bound in an execution namespace: a module object, or any other
      Python object, identified only by its repr. */
  datatype Value = Module(moduleName: string) | Object(repr: string)

  /** The dictionary an interpreter evaluates code against. */
  type Namespace = map<string, Value>
}

=== FILE: manager.dfy ===
/** The session registry: a map from session id to session with a hard cap,
    a parallel map of per-session locks, dispatch of an execution request to a
    new, unknown or existing session, and the sweep that removes idle
    sessions. */
module Manager {
  import opened Common
  import opened Process
  import Response

  const MAX_SESSIONS := 40
  const IDLE_TIMEOUT_SECONDS := 60

  type SessionId = string

  /** A per-session lock. Calls are modelled one at a time, so a lock is
      always free between calls and carries no further state. */
  datatype Lock = Free

  /** The registry as a value: each session's state under its id. */
  type Registry = map<SessionId, SessionState>

  /** What the surroundings decide for one request: the clock reading, the
      id `uuid4` would produce, the platform and whether `setrlimit` is
      accepted (for a session created by this request), the interpreter, and
      how the wait for the reply turns out. */
  datatype CallContext = CallContext(
    now: int,
    freshId: SessionId,
    isLinux: bool,
    setrlimitAccepted: bool,
    interp: Interpreter,
    wait: Wait)

  /** `execute`: the new registry, the triple and the session id returned. */
  function RegistryExecute(reg: Registry, code: string, sessionId: Option<SessionId>, c: CallContext)
    : (Registry, Triple, SessionId)
    requires sessionId.None? ==> c.freshId !in reg
  {
    if sessionId.None? && |reg| >= MAX_SESSIONS then (reg, ErrorTriple(MAX_SESSIONS_REACHED), "")
    else
      var id := if sessionId.None? then c.freshId else sessionId.value;
      var reg1 := if sessionId.None? then reg[id := InitialSession(c.now, c.isLinux, c.setrlimitAccepted)] else reg;
      if id !in reg1 then (reg, ErrorTriple(SESSION_NOT_FOUND), id)
      else
        var (s1, r) := ExecuteSpec(reg1[id].(lastAccessed := c.now), code, c.interp, c.wait);
        (reg1[id := s1], r, id)
  }

  /** The registry never grows past the cap. */
  lemma RegistryStaysCapped(reg: Registry, code: string, sessionId: Option<SessionId>, c: CallContext)
    requires sessionId.None? ==> c.freshId !in reg
    requires |reg| <= MAX_SESSIONS
    ensures |RegistryExecute(reg, code, sessionId, c).0| <= MAX_SESSIONS
  {
  }

  /** A request without an id is refused exactly when the registry is full;
      a refusal changes nothing and returns an empty id. */
  lemma {:induction false} CreationRefusedExactlyWhenFull(reg: Registry, code: string, c: CallContext)
    requires c.freshId !in reg
    ensures var (reg1, r, id) := RegistryExecute(reg, code, None, c);
      && (r == ErrorTriple(MAX_SESSIONS_REACHED) <==> |reg| >= MAX_SESSIONS)
      && (|reg| >= MAX_SESSIONS ==> reg1 == reg && id == "")
  {
    if |reg| < MAX_SESSIONS {
      var s := InitialSession(c.now, c.isLinux, c.setrlimitAccepted).(lastAccessed := c.now);
      FreshSessionRunsCode(c.now, c.isLinux, c.setrlimitAccepted, code, c.interp, c.wait);
      assert ExecuteSpec(s, code, c.interp, c.wait).1.error != Some(MAX_SESSIONS_REACHED);
    }
  }

  /** A successful creation adds exactly the fresh id, leaves every other
      entry alone, and runs the code in the new session at once. */
  lemma {:induction false} CreationAddsOneFreshSession(reg: Registry, code: string, c: CallContext)
    requires c.freshId !in reg && |reg| < MAX_SESSIONS
    ensures var (reg1, r, id) := RegistryExecute(reg, code, None, c);
      && id == c.freshId
      && reg1.Keys == reg.Keys + {id}
      && (forall k :: k in reg ==> reg1[k] == reg[k])
      && (reg1[id], r) == ExecuteSpec(InitialSession(c.now, c.isLinux, c.setrlimitAccepted), code, c.interp, c.wait)
      && r != ErrorTriple(SESSION_CRASHED) && r != ErrorTriple(SESSION_NOT_FOUND)
  {
    var s := InitialSession(c.now, c.isLinux, c.setrlimitAccepted);
    assert s.(lastAccessed := c.now) == s;
    FreshSessionRunsCode(c.now, c.isLinux, c.setrlimitAccepted, code, c.interp, c.wait);
    ExecuteOutcomes(s, code, c.interp, c.wait);
  }

  /** An id the registry does not hold is answered "session not found",
      echoing the id, and nothing changes. */
  lemma UnknownIdIsEchoed(reg: Registry, code: string, id: SessionId, c: CallContext)
    requires id !in reg
    ensures RegistryExecute(reg, code, Some(id), c) == (reg, ErrorTriple(SESSION_NOT_FOUND), id)
  {
  }

  /** A known id runs the code in that session, after stamping its access
      time, and answers with that session's own triple and the same id; no
      other entry changes. */
  lemma KnownIdRunsInItsSession(reg: Registry, code: string, id: SessionId, c: CallContext)
    requires id in reg
    ensures var (reg1, r, id1) := RegistryExecute(reg, code, Some(id), c);
      && id1 == id
      && reg1.Keys == reg.Keys
      && (forall k :: k in reg && k != id ==> reg1[k] == reg[k])
      && (reg1[id], r) == ExecuteSpec(reg[id].(lastAccessed := c.now), code, c.interp, c.wait)
      && reg1[id].lastAccessed == c.now
  {
    ExecuteKeepsAccessTimeAndDeath(reg[id].(lastAccessed := c.now), code, c.interp, c.wait);
  }

  /** Every answer of the registry passes the response's mutual-exclusion
      check. */
  lemma {:induction false} RegistryAnswersAreValidResponses(reg: Registry, code: string, sessionId: Option<SessionId>,
                                                            c: CallContext)
    requires sessionId.None? ==> c.freshId !in reg
    ensures var r := RegistryExecute(reg, code, sessionId, c).1;
      Response.CheckMutualExclusivity(Response.FromTriple(r)) == Ok(Response.FromTriple(r))
  {
    if !(sessionId.None? && |reg| >= MAX_SESSIONS) {
      var id := if sessionId.None? then c.freshId else sessionId.value;
      var reg1 := if sessionId.None? then reg[id := InitialSession(c.now, c.isLinux, c.setrlimitAccepted)] else reg;
      if id in reg1 {
        ExecuteAnswersAreValidResponses(reg1[id].(lastAccessed := c.now), code, c.interp, c.wait);
      }
    }
  }

  /** Idle for strictly longer than the timeout. */
  predicate IsStale(s: SessionState, now: int) {
    now - s.lastAccessed > IDLE_TIMEOUT_SECONDS
  }

  /** `_cleanup_stale_sessions`: the registry without its stale entries. */
  function Sweep(reg: Registry, now: int): (r: Registry)
    ensures forall id :: id in r <==> id in reg && !IsStale(reg[id], now)
    ensures forall id :: id in r ==> r[id] == reg[id]
  {
    map id | id in reg && !IsStale(reg[id], now) :: reg[id]
  }

  /** The sweep keeps a session idle for exactly the timeout, and drops one
      idle a moment longer. */
  lemma SweepBoundaryIsStrict(reg: Registry, now: int, id: SessionId)
    requires id in reg
    ensures reg[id].lastAccessed == now - IDLE_TIMEOUT_SECONDS ==> id in Sweep(reg, now)
    ensures reg[id].lastAccessed == now - IDLE_TIMEOUT_SECONDS - 1 ==> id !in Sweep(reg, now)
  {
  }

  /** The registry part-way through a sweep: the fresh entries, and the stale
      ones not yet removed. */
  function SweepPending(reg: Registry, now: int, pending: set<SessionId>): Registry {
    map id | id in reg && (id in pending || !IsStale(reg[id], now)) :: reg[id]
  }

  lemma SweepPendingStep(reg: Registry, now: int, pending: set<SessionId>, sid: SessionId)
    requires sid in pending && sid in reg && IsStale(reg[sid], now)
    ensures SweepPending(reg, now, pending) - {sid} == SweepPending(reg, now, pending - {sid})
  {
  }

  /** A swept id is then unknown: a request naming it is answered "session
      not found". */
  lemma SweptIdIsNotFound(reg: Registry, now: int, id: SessionId, code: string, c: CallContext)
    requires id in reg && IsStale(reg[id], now)
    ensures RegistryExecute(Sweep(reg, now), code, Some(id), c).1 == ErrorTriple(SESSION_NOT_FOUND)
  {
  }

  /** Sweeping twice at the same time removes nothing more, and a sweep
      never grows the registry. */
  lemma {:induction false} SweepIdempotent(reg: Registry, now: int)
    ensures Sweep(Sweep(reg, now), now) == Sweep(reg, now)
    ensures |Sweep(reg, now)| <= |reg|
  {
    assert Sweep(reg, now).Keys <= reg.Keys;
    SubsetCardinality(Sweep(reg, now).Keys, reg.Keys);
  }

  lemma {:induction false} SubsetCardinality<T>(a: set<T>, b: set<T>)
    requires a <= b
    ensures |a| <= |b|
    decreases |b|
  {
    if b != {} {
      var x :| x in b;
      SubsetCardinality(a - {x}, b - {x});
    }
  }

  /** `SessionManager`. Each session's state is held by value under its id:
      the registry is the only holder of its sessions. */
  class SessionManager {
    var sessions: Registry
    var locks: map<SessionId, Lock>

    /** The two maps agree on their keys and the cap holds. */
    ghost predicate Valid()
      reads this
    {
      sessions.Keys == locks.Keys && |sessions| <= MAX_SESSIONS
    }

    constructor ()
      ensures Valid() && sessions == map[] && locks == map[]
    {
      sessions := map[];
      locks := map[];
    }

    /** `_create_session`: refuse at the cap; otherwise register a new session
        and its lock under the fresh id. */
    method CreateSession(c: CallContext) returns (id: Option<SessionId>)
      requires Valid() && c.freshId !in sessions
      modifies this
      ensures Valid()
      ensures id.None? <==> |old(sessions)| >= MAX_SESSIONS
      ensures id.None? ==> sessions == old(sessions) && locks == old(locks)
      ensures id.Some? ==>
        && id.value == c.freshId
        && sessions == old(sessions)[c.freshId := InitialSession(c.now, c.isLinux, c.setrlimitAccepted)]
        && locks == old(locks)[c.freshId := Free]
    {
      if |sessions| >= MAX_SESSIONS {
        return None;
      }
      sessions := sessions[c.freshId := InitialSession(c.now, c.isLinux, c.setrlimitAccepted)];
      locks := locks[c.freshId := Free];
      id := Some(c.freshId);
    }

    /** `execute`: create a session when no id is given, refuse an unknown id,
        otherwise stamp the session's access time and run the code in it. */
    method Execute(code: string, sessionId: Option<SessionId>, c: CallContext) returns (r: Triple, id: SessionId)
      requires Valid() && (sessionId.None? ==> c.freshId !in sessions)
      modifies this
      ensures Valid()
      ensures (sessions, r, id) == RegistryExecute(old(sessions), code, sessionId, c)
    {
      if sessionId.None? {
        var created := CreateSession(c);
        if created.None? {
          return ErrorTriple(MAX_SESSIONS_REACHED), "";
        }
        id := created.value;
      } else {
        id := sessionId.value;
      }
      if id !in sessions {
        return ErrorTriple(SESSION_NOT_FOUND), id;
      }
      var session := sessions[id].(lastAccessed := c.now);
      var (s1, triple) := ExecuteSpec(session, code, c.interp, c.wait);
      sessions := sessions[id := s1];
      r := triple;
    }

    /** `_remove_session`: terminate a present session and drop it and its
        lock; an absent id changes nothing. The terminated session is
        returned. */
    method RemoveSession(id: SessionId) returns (removed: Option<SessionState>)
      requires Valid()
      modifies this
      ensures Valid()
      ensures sessions == old(sessions) - {id} && locks == old(locks) - {id}
      ensures removed == if id in old(sessions) then Some(TerminateSpec(old(sessions)[id])) else None
    {
      removed := None;
      if id in sessions {
        removed := Some(TerminateSpec(sessions[id]));
        sessions := sessions - {id};
        locks := locks - {id};
      }
    }

    /** `_cleanup_stale_sessions`: collect the ids idle for longer than the
        timeout, then remove each of them. */
    method CleanupStaleSessions(now: int)
      requires Valid()
      modifies this
      ensures Valid()
      ensures sessions == Sweep(old(sessions), now)
    {
      var stale := set id | id in sessions && now - sessions[id].lastAccessed > IDLE_TIMEOUT_SECONDS;
      ghost var reg := sessions;
      while stale != {}
        invariant Valid()
        invariant stale <= sessions.Keys
        invariant forall id :: id in stale ==> id in reg && IsStale(reg[id], now)
        invariant sessions == SweepPending(reg, now, stale)
        decreases |stale|
      {
        var sid :| sid in stale;
        SweepPendingStep(reg, now, stale, sid);
        var _ := RemoveSession(sid);
        stale := stale - {sid};
      }
      assert SweepPending(reg, now, {}) == Sweep(reg, now);
    }
  }
}

=== FILE: memory_limiter.dfy ===
/** Memory and time enforcement for a worker process: the kernel address-space
    limit installed on Linux, and the reactive polling monitor used elsewhere. */
module MemoryLimiter {
  import opened Common

  const BYTES_PER_MB := 1024 * 1024

  /** Bytes in `memoryMb` megabytes. */
  function MemoryLimitBytes(memoryMb: nat): (bytes: nat)
    ensures bytes % BYTES_PER_MB == 0
    ensures bytes / BYTES_PER_MB == memoryMb
  {
    memoryMb * 1024 * 1024
  }

  /** A resource limit as `setrlimit` takes it. */
  datatype RLimit = RLimit(soft: nat, hard: nat)

  /** The `RLIMIT_AS` pair `set_limit_linux` installs: soft and hard limit are
      the same byte count. The system call itself is not part of this model. */
  function LinuxAddressSpaceLimit(memoryMb: nat): (limit: RLimit)
    ensures limit.soft == limit.hard
    ensures limit.soft / BYTES_PER_MB == memoryMb && limit.soft % BYTES_PER_MB == 0
  {
    var bytes := MemoryLimitBytes(memoryMb);
    RLimit(bytes, bytes)
  }

  /** One poll that found the process still running: whole seconds since the
      monitor started, and the resident set size in bytes, or `None` when the
      process had vanished by the time it was sampled. */
  datatype Sample = Sample(elapsed: int, rss: Option<nat>)

  /** What one poll decides: checked in this order, timeout before memory, and
      both comparisons strict. */
  datatype PollDecision = KillForTimeout | KillForMemory | StopPolling | KeepPolling

  function Poll(s: Sample, timeoutSeconds: int, memoryLimitMb: nat): (d: PollDecision)
    ensures d == KillForTimeout <==> s.elapsed > timeoutSeconds
    ensures d == KillForMemory <==>
      s.elapsed <= timeoutSeconds && s.rss.Some? && s.rss.value > MemoryLimitBytes(memoryLimitMb)
    ensures d == StopPolling <==> s.elapsed <= timeoutSeconds && s.rss.None?
  {
    if s.elapsed > timeoutSeconds then KillForTimeout
    else if s.rss.None? then StopPolling
    else if s.rss.value > MemoryLimitBytes(memoryLimitMb) then KillForMemory
    else KeepPolling
  }

  /** The monitor and the kernel limit use the same threshold: a poll within
      the deadline kills for memory exactly when the resident set exceeds the
      hard address-space limit `set_limit_linux` installs for the same budget. */
  lemma SameThresholdAsKernelLimit(s: Sample, timeoutSeconds: int, memoryLimitMb: nat)
    requires s.elapsed <= timeoutSeconds && s.rss.Some?
    ensures Poll(s, timeoutSeconds, memoryLimitMb) == KillForMemory
        <==> s.rss.value > LinuxAddressSpaceLimit(memoryLimitMb).hard
  {
  }

  /** The result once the process is no longer polled: its captured output,
      empty buffers reported as absent, and no error. */
  function Finished(stdout: string, stderr: string): (t: Triple)
    ensures t.error.None?
    ensures t.stdout.GetOr("") == stdout && (t.stdout.Some? <==> stdout != "")
    ensures t.stderr.GetOr("") == stderr && (t.stderr.Some? <==> stderr != "")
  {
    Triple(NoneIfEmpty(stdout), NoneIfEmpty(stderr), None)
  }

  /** The triple `monitor_process_windows` returns for a run whose successive
      polls found the process running with the samples of `trace`; once the
      trace is exhausted, the next poll finds the process finished. */
  function Monitor(trace: seq<Sample>, timeoutSeconds: int, memoryLimitMb: nat,
                   stdout: string, stderr: string): Triple
  {
    if trace == [] then Finished(stdout, stderr)
    else
      match Poll(trace[0], timeoutSeconds, memoryLimitMb)
      case KillForTimeout => ErrorTriple(EXECUTION_TIMEOUT)
      case KillForMemory => ErrorTriple(MEMORY_LIMIT_EXCEEDED)
      case StopPolling => Finished(stdout, stderr)
      case KeepPolling => Monitor(trace[1..], timeoutSeconds, memoryLimitMb, stdout, stderr)
  }

  /** A poll that lets the loop go on to the next one. */
  predicate Continues(s: Sample, timeoutSeconds: int, memoryLimitMb: nat) {
    Poll(s, timeoutSeconds, memoryLimitMb) == KeepPolling
  }

  /** The first `k` polls all let the loop go on. */
  predicate QuietPrefix(trace: seq<Sample>, k: nat, timeoutSeconds: int, memoryLimitMb: nat)
    requires k <= |trace|
  {
    forall j :: 0 <= j < k ==> Continues(trace[j], timeoutSeconds, memoryLimitMb)
  }

  /** The monitor loop: each pass checks the deadline, then samples memory,
      and kills the process on the first violation. `killed` says whether the
      process was killed (and waited for). */
  method MonitorProcess(trace: seq<Sample>, timeoutSeconds: int, memoryLimitMb: nat,
                        stdout: string, stderr: string)
    returns (r: Triple, killed: bool)
    ensures r == Monitor(trace, timeoutSeconds, memoryLimitMb, stdout, stderr)
    ensures killed <==> r.error.Some?
    ensures r.error.Some? ==> r.stdout.None? && r.stderr.None?
  {
    var memoryLimitBytes := MemoryLimitBytes(memoryLimitMb);
    var i := 0;
    while i < |trace|
      invariant 0 <= i <= |trace|
      invariant Monitor(trace, timeoutSeconds, memoryLimitMb, stdout, stderr)
             == Monitor(trace[i..], timeoutSeconds, memoryLimitMb, stdout, stderr)
    {
      var elapsed := trace[i].elapsed;
      if elapsed > timeoutSeconds {
        return ErrorTriple(EXECUTION_TIMEOUT), true;
      }
      match trace[i].rss {
        case None =>
          break;
        case Some(memoryUsage) =>
          if memoryUsage > memoryLimitBytes {
            return ErrorTriple(MEMORY_LIMIT_EXCEEDED), true;
          }
      }
      assert trace[i..][1..] == trace[i + 1..];
      i := i + 1;
    }
    r, killed := Finished(stdout, stderr), false;
  }

  /** The monitor reports a timeout exactly when some poll is past the
      deadline and every earlier poll let the loop go on. */
  lemma {:induction false} MonitorTimeoutExactly(trace: seq<Sample>, timeoutSeconds: int, memoryLimitMb: nat,
                                                stdout: string, stderr: string)
    ensures Monitor(trace, timeoutSeconds, memoryLimitMb, stdout, stderr) == ErrorTriple(EXECUTION_TIMEOUT)
        <==> exists k :: 0 <= k < |trace| && QuietPrefix(trace, k, timeoutSeconds, memoryLimitMb)
                       && trace[k].elapsed > timeoutSeconds
    decreases |trace|
  {
    var m := Monitor(trace, timeoutSeconds, memoryLimitMb, stdout, stderr);
    if trace == [] {
    } else if Continues(trace[0], timeoutSeconds, memoryLimitMb) {
      var tail := trace[1..];
      MonitorTimeoutExactly(tail, timeoutSeconds, memoryLimitMb, stdout, stderr);
      if m == ErrorTriple(EXECUTION_TIMEOUT) {
        var k :| 0 <= k < |tail| && QuietPrefix(tail, k, timeoutSeconds, memoryLimitMb)
                 && tail[k].elapsed > timeoutSeconds;
        assert QuietPrefix(trace, k + 1, timeoutSeconds, memoryLimitMb) by {
          forall j | 0 <= j < k + 1 ensures Continues(trace[j], timeoutSeconds, memoryLimitMb) {
            if j > 0 { assert trace[j] == tail[j - 1]; }
          }
        }
        assert trace[k + 1] == tail[k];
      }
      if exists k :: 0 <= k < |trace| && QuietPrefix(trace, k, timeoutSeconds, memoryLimitMb)
                   && trace[k].elapsed > timeoutSeconds {
        var k :| 0 <= k < |trace| && QuietPrefix(trace, k, timeoutSeconds, memoryLimitMb)
                 && trace[k].elapsed > timeoutSeconds;
        assert k != 0;
        assert QuietPrefix(tail, k - 1, timeoutSeconds, memoryLimitMb) by {
          forall j | 0 <= j < k - 1 ensures Continues(tail[j], timeoutSeconds, memoryLimitMb) {
            assert tail[j] == trace[j + 1];
          }
        }
        assert tail[k - 1] == trace[k];
      }
    } else {
      assert QuietPrefix(trace, 0, timeoutSeconds, memoryLimitMb);
      if trace[0].elapsed <= timeoutSeconds {
        forall k | 0 <= k < |trace| && QuietPrefix(trace, k, timeoutSeconds, memoryLimitMb)
          ensures trace[k].elapsed <= timeoutSeconds
        {
        }
      }
    }
  }

  /** The monitor reports a memory violation exactly when some poll within the
      deadline measured more than the limit and every earlier poll let the
      loop go on. */
  lemma {:induction false} MonitorMemoryExactly(trace: seq<Sample>, timeoutSeconds: int, memoryLimitMb: nat,
                                               stdout: string, stderr: string)
    ensures Monitor(trace, timeoutSeconds, memoryLimitMb, stdout, stderr) == ErrorTriple(MEMORY_LIMIT_EXCEEDED)
        <==> exists k :: 0 <= k < |trace| && QuietPrefix(trace, k, timeoutSeconds, memoryLimitMb)
                       && Poll(trace[k], timeoutSeconds, memoryLimitMb) == KillForMemory
    decreases |trace|
  {
    var m := Monitor(trace, timeoutSeconds, memoryLimitMb, stdout, stderr);
    if trace == [] {
    } else if Continues(trace[0], timeoutSeconds, memoryLimitMb) {
      var tail := trace[1..];
      MonitorMemoryExactly(tail, timeoutSeconds, memoryLimitMb, stdout, stderr);
      if m == ErrorTriple(MEMORY_LIMIT_EXCEEDED) {
        var k :| 0 <= k < |tail| && QuietPrefix(tail, k, timeoutSeconds, memoryLimitMb)
                 && Poll(tail[k], timeoutSeconds, memoryLimitMb) == KillForMemory;
        assert QuietPrefix(trace, k + 1, timeoutSeconds, memoryLimitMb) by {
          forall j | 0 <= j < k + 1 ensures Continues(trace[j], timeoutSeconds, memoryLimitMb) {
            if j > 0 { assert trace[j] == tail[j - 1]; }
          }
        }
        assert trace[k + 1] == tail[k];
      }
      if exists k :: 0 <= k < |trace| && QuietPrefix(trace, k, timeoutSeconds, memoryLimitMb)
                   && Poll(trace[k], timeoutSeconds, memoryLimitMb) == KillForMemory {
        var k :| 0 <= k < |trace| && QuietPrefix(trace, k, timeoutSeconds, memoryLimitMb)
                 && Poll(trace[k], timeoutSeconds, memoryLimitMb) == KillForMemory;
        assert k != 0;
        assert QuietPrefix(tail, k - 1, timeoutSeconds, memoryLimitMb) by {
          forall j | 0 <= j < k - 1 ensures Continues(tail[j], timeoutSeconds, memoryLimitMb) {
            assert tail[j] == trace[j + 1];
          }
        }
        assert tail[k - 1] == trace[k];
      }
    } else {
      assert QuietPrefix(trace, 0, timeoutSeconds, memoryLimitMb);
      if Poll(trace[0], timeoutSeconds, memoryLimitMb) != KillForMemory {
        forall k | 0 <= k < |trace| && QuietPrefix(trace, k, timeoutSeconds, memoryLimitMb)
          ensures Poll(trace[k], timeoutSeconds, memoryLimitMb) != KillForMemory
        {
        }
      }
    }
  }

  /** Without a violation (every poll within the deadline and at or under the
      limit, or the process vanishing) the result is the process's own output
      with no error: neither check fires on equality. */
  lemma {:induction false} MonitorWithoutViolationFinishes(trace: seq<Sample>, timeoutSeconds: int,
                                                          memoryLimitMb: nat, stdout: string, stderr: string)
    requires forall j :: 0 <= j < |trace| ==>
      trace[j].elapsed <= timeoutSeconds
      && (trace[j].rss.None? || trace[j].rss.value <= MemoryLimitBytes(memoryLimitMb))
    ensures Monitor(trace, timeoutSeconds, memoryLimitMb, stdout, stderr) == Finished(stdout, stderr)
    decreases |trace|
  {
    if trace != [] && Continues(trace[0], timeoutSeconds, memoryLimitMb) {
      MonitorWithoutViolationFinishes(trace[1..], timeoutSeconds, memoryLimitMb, stdout, stderr);
    }
  }

  /** The monitor's outcome is one of exactly three shapes, and an error never
      comes with output. */
  lemma {:induction false} MonitorOutcomeShapes(trace: seq<Sample>, timeoutSeconds: int, memoryLimitMb: nat,
                                               stdout: string, stderr: string)
    ensures var r := Monitor(trace, timeoutSeconds, memoryLimitMb, stdout, stderr);
      r == Finished(stdout, stderr) || r == ErrorTriple(EXECUTION_TIMEOUT) || r == ErrorTriple(MEMORY_LIMIT_EXCEEDED)
    decreases |trace|
  {
    if trace != [] && Continues(trace[0], timeoutSeconds, memoryLimitMb) {
      MonitorOutcomeShapes(trace[1..], timeoutSeconds, memoryLimitMb, stdout, stderr);
    }
  }

  /** When the first poll is both past the deadline and over the limit, the
      timeout wins. */
  lemma TimeoutCheckedBeforeMemory(s: Sample, rest: seq<Sample>, timeoutSeconds: int, memoryLimitMb: nat,
                                   stdout: string, stderr: string)
    requires s.elapsed > timeoutSeconds && s.rss.Some? && s.rss.value > MemoryLimitBytes(memoryLimitMb)
    ensures Monitor([s] + rest, timeoutSeconds, memoryLimitMb, stdout, stderr) == ErrorTriple(EXECUTION_TIMEOUT)
  {
  }
}

=== FILE: process.dfy ===
/** One interpreter session: the supervising side, which sends code to a worker
    process and classifies what comes back, and the worker process, which
    evaluates each piece of code against a persistent namespace and replies
    with the captured output. */
module Process {
  import opened Common
  import MemoryLimiter
  import Response

  /** The memory budget of every worker. */
  const MEMORY_LIMIT_MB := 100

  // ---------------------------------------------------------------------------
  // The worker process.

  /** What the worker takes off its input channel: a piece of code, or a
      failure of the receive itself. */
  datatype Command = Code(source: string) | ReceiveFailure

  /** What evaluating one piece of code against the namespace does: it
      completes with the text written to stdout and stderr; it raises an
      `Exception`, with whatever stderr was written before and the formatted
      traceback; or it raises something that is not an `Exception`
      (`SystemExit`, `KeyboardInterrupt`), which ends the worker process.
      The namespace after the evaluation is part of the first two outcomes. */
  datatype Evaluation =
    | Completed(stdout: string, stderr: string, after: Namespace)
    | Raised(capturedStderr: string, traceback: string, after: Namespace)
    | Exited

  /** The interpreter: evaluation of source text against a namespace. */
  type Interpreter = (Namespace, string) -> Evaluation

  /** The reply the worker sends for an evaluation, if it sends one. A fault is
      reported as stderr, never in the error slot. */
  function ShapeReply(e: Evaluation): (r: Option<Triple>)
    ensures r.None? <==> e.Exited?
    ensures r.Some? ==> r.value.error.None?
    ensures e.Completed? ==> r.value.stdout.GetOr("") == e.stdout && r.value.stderr.GetOr("") == e.stderr
    ensures e.Completed? ==> (r.value.stdout.Some? <==> e.stdout != "") && (r.value.stderr.Some? <==> e.stderr != "")
    ensures e.Raised? ==> r.value.stdout.None? && r.value.stderr.Some?
    ensures e.Raised? && e.capturedStderr != "" ==> r.value.stderr.value == e.capturedStderr
    ensures e.Raised? && e.capturedStderr == "" ==> r.value.stderr.value == e.traceback
  {
    match e
    case Completed(out, err, _) => Some(Triple(NoneIfEmpty(out), NoneIfEmpty(err), None))
    case Raised(captured, tb, _) => Some(Triple(None, Some(if captured != "" then captured else tb), None))
    case Exited => None
  }

  /** The worker's state: whether its process is running, the namespace code
      runs against, and the address-space limit it installed at start-up. */
  datatype WorkerState = WorkerState(alive: bool, namespace: Namespace, addressSpaceLimit: Option<MemoryLimiter.RLimit>)

  /** The locals a new `InteractiveInterpreter` starts with: `__name__` bound
      to `'__console__'` and `__doc__` to `None`. */
  const INITIAL_LOCALS: Namespace := map["__name__" := Object("'__console__'"), "__doc__" := Object("None")]

  /** A worker just started: running, with the interpreter's initial locals.
      On Linux it tries to install the address-space limit and carries on
      without it when the system refuses. */
  function InitialWorker(isLinux: bool, setrlimitAccepted: bool): (w: WorkerState)
    ensures w.alive && w.namespace == INITIAL_LOCALS
    ensures w.namespace.Keys == {"__name__", "__doc__"} && w.namespace["__name__"] == Object("'__console__'")
    ensures w.addressSpaceLimit.Some? <==> isLinux && setrlimitAccepted
    ensures w.addressSpaceLimit.Some? ==> w.addressSpaceLimit.value.hard == MemoryLimiter.MemoryLimitBytes(MEMORY_LIMIT_MB)
  {
    WorkerState(true, INITIAL_LOCALS,
      if isLinux && setrlimitAccepted then Some(MemoryLimiter.LinuxAddressSpaceLimit(MEMORY_LIMIT_MB)) else None)
  }

  /** One turn of the worker's loop: the new state and the reply sent, if any. */
  function WorkerStep(w: WorkerState, cmd: Command, interp: Interpreter): (WorkerState, Option<Triple>) {
    match cmd
    case ReceiveFailure => (w.(alive := false), None)
    case Code(src) =>
      var e := interp(w.namespace, src);
      match e
      case Exited => (w.(alive := false), None)
      case _ => (w.(namespace := e.after), ShapeReply(e))
  }

  /** A turn replies unless the receive fails or the code ends the process,
      and then the worker is gone. After a reply the worker continues with the
      namespace the code left behind; its limit never changes. */
  lemma WorkerStepReplies(w: WorkerState, cmd: Command, interp: Interpreter)
    ensures var (w1, reply) := WorkerStep(w, cmd, interp);
      && (reply.None? <==> cmd.ReceiveFailure? || interp(w.namespace, cmd.source).Exited?)
      && (reply.None? ==> !w1.alive)
      && (reply.Some? ==> w1.alive == w.alive && w1.namespace == interp(w.namespace, cmd.source).after)
      && w1.addressSpaceLimit == w.addressSpaceLimit
      && (reply.Some? ==> reply.value.error.None?)
  {
  }

  function Replies(r: Option<Triple>): seq<Triple> {
    if r.Some? then [r.value] else []
  }

  /** The worker's loop over the commands it receives, until it stops. */
  function Serve(w: WorkerState, inbox: seq<Command>, interp: Interpreter): (WorkerState, seq<Triple>)
    decreases |inbox|
  {
    if |inbox| == 0 || !w.alive then (w, [])
    else
      var (w1, reply) := WorkerStep(w, inbox[0], interp);
      var (w2, rest) := Serve(w1, inbox[1..], interp);
      (w2, Replies(reply) + rest)
  }

  /** In this run every receive succeeds and no piece of code ends the
      process: each command is code, and evaluating it against the namespace
      the earlier commands left behind raises nothing past `Exception`. */
  predicate RunNeverExits(w: WorkerState, inbox: seq<Command>, interp: Interpreter) {
    forall i :: 0 <= i < |inbox| ==>
      inbox[i].Code? && !interp(Serve(w, inbox[..i], interp).0.namespace, inbox[i].source).Exited?
  }

  /** No reply of the worker carries an error classification, and it sends
      at most one reply per command. */
  lemma {:induction false} ServeRepliesErrorFree(w: WorkerState, inbox: seq<Command>, interp: Interpreter)
    ensures var (_, replies) := Serve(w, inbox, interp);
      && |replies| <= |inbox|
      && forall i :: 0 <= i < |replies| ==> replies[i].error.None?
    decreases |inbox|
  {
    if |inbox| > 0 && w.alive {
      var (w1, reply) := WorkerStep(w, inbox[0], interp);
      WorkerStepReplies(w, inbox[0], interp);
      ServeRepliesErrorFree(w1, inbox[1..], interp);
    }
  }

  /** A fault raised by the code does not end the loop: as long as every
      receive succeeds and no code raises past `Exception`, the worker stays
      alive and answers every command. */
  lemma {:induction false} ServeSurvivesFaults(w: WorkerState, inbox: seq<Command>, interp: Interpreter)
    requires w.alive
    requires RunNeverExits(w, inbox, interp)
    ensures var (w2, replies) := Serve(w, inbox, interp);
      w2.alive && |replies| == |inbox|
    decreases |inbox|
  {
    if |inbox| > 0 {
      assert inbox[..0] == [];
      var (w1, reply) := WorkerStep(w, inbox[0], interp);
      assert !interp(w.namespace, inbox[0].source).Exited?;
      forall i | 0 <= i < |inbox| - 1
        ensures inbox[1..][i].Code?
             && !interp(Serve(w1, inbox[1..][..i], interp).0.namespace, inbox[1..][i].source).Exited?
      {
        assert inbox[..i + 1][0] == inbox[0] && inbox[..i + 1][1..] == inbox[1..][..i];
        assert Serve(w, inbox[..i + 1], interp).0 == Serve(w1, inbox[1..][..i], interp).0;
        assert inbox[1..][i] == inbox[i + 1];
      }
      ServeSurvivesFaults(w1, inbox[1..], interp);
    }
  }

  /** A failed receive ends the loop: nothing after it is answered. */
  lemma {:induction false} ServeStopsAtReceiveFailure(w: WorkerState, inbox: seq<Command>, interp: Interpreter, k: nat)
    requires k < |inbox| && inbox[k].ReceiveFailure?
    ensures var (w2, replies) := Serve(w, inbox, interp);
      !w2.alive && |replies| <= k
    decreases |inbox|
  {
    if w.alive {
      var (w1, reply) := WorkerStep(w, inbox[0], interp);
      if k > 0 {
        ServeStopsAtReceiveFailure(w1, inbox[1..], interp, k - 1);
      }
    }
  }

  /** The worker process: `worker_function`. */
  class WorkerProcess {
    var alive: bool
    var namespace: Namespace
    const addressSpaceLimit: Option<MemoryLimiter.RLimit>

    function State(): WorkerState
      reads this
    {
      WorkerState(alive, namespace, addressSpaceLimit)
    }

    /** Start-up: the limit (on Linux) and a fresh interpreter's locals. */
    constructor (isLinux: bool, setrlimitAccepted: bool)
      ensures State() == InitialWorker(isLinux, setrlimitAccepted)
    {
      alive := true;
      namespace := INITIAL_LOCALS;
      addressSpaceLimit :=
        if isLinux && setrlimitAccepted then Some(MemoryLimiter.LinuxAddressSpaceLimit(MEMORY_LIMIT_MB)) else None;
    }

    /** The body of the worker's loop: take one command, evaluate it with
        output captured, and send the shaped reply. */
    method Step(cmd: Command, interp: Interpreter) returns (reply: Option<Triple>)
      requires alive
      modifies this
      ensures (State(), reply) == WorkerStep(old(State()), cmd, interp)
    {
      match cmd {
        case ReceiveFailure =>
          alive := false;
          reply := None;
        case Code(src) =>
          var e := interp(namespace, src);
          if e.Exited? {
            alive := false;
            reply := None;
          } else {
            namespace := e.after;
            reply := ShapeReply(e);
          }
      }
    }

    /** The loop: serve commands in order until the process stops or the
        commands run out. */
    method ServeAll(inbox: seq<Command>, interp: Interpreter) returns (replies: seq<Triple>)
      modifies this
      ensures (State(), replies) == Serve(old(State()), inbox, interp)
    {
      replies := [];
      var i := 0;
      while i < |inbox| && alive
        invariant 0 <= i <= |inbox|
        invariant Serve(old(State()), inbox, interp).0 == Serve(State(), inbox[i..], interp).0
        invariant Serve(old(State()), inbox, interp).1 == replies + Serve(State(), inbox[i..], interp).1
      {
        assert inbox[i..][1..] == inbox[i + 1..];
        var reply := Step(inbox[i], interp);
        replies := replies + Replies(reply);
        i := i + 1;
      }
      assert Serve(State(), inbox[i..], interp) == (State(), []);
      assert replies + [] == replies;
    }

    /** `terminate`, `join(timeout=1)`, then `kill` if still running. Whether
        the process exits within the grace period is a parameter. */
    method Stop(exitsWithinGrace: bool) returns (killed: bool)
      modifies this
      ensures State() == old(State()).(alive := false)
      ensures killed <==> old(alive) && !exitsWithinGrace
    {
      killed := alive && !exitsWithinGrace;
      alive := false;
    }
  }

  // ---------------------------------------------------------------------------
  // The supervising side: `SessionProcess`.

  /** When the worker's reply reaches the supervisor: within the 2-second
      timeout, too late (or never, when the worker sent none), or with the
      channel itself failing. */
  datatype Arrival = InTime | TooLate | ChannelFault

  /** What the environment decides during one call: when the reply arrives,
      whether the memory monitor set the flag during the wait, and whether the
      worker exits within the grace period when it is stopped. */
  datatype Wait = Wait(arrival: Arrival, monitorFired: bool, exitsWithinGrace: bool)

  /** A session's state: when it was last used, the memory flag, whether its
      channels are open, and its worker. */
  datatype SessionState = SessionState(lastAccessed: int, memoryExceeded: bool, channelsOpen: bool, worker: WorkerState)

  function InitialSession(now: int, isLinux: bool, setrlimitAccepted: bool): (s: SessionState)
    ensures s.lastAccessed == now && !s.memoryExceeded && s.channelsOpen && s.worker.alive
  {
    SessionState(now, false, true, InitialWorker(isLinux, setrlimitAccepted))
  }

  /** `execute`: the new session state and the triple returned. */
  function ExecuteSpec(s: SessionState, code: string, interp: Interpreter, w: Wait): (SessionState, Triple) {
    if s.memoryExceeded then (s, ErrorTriple(MEMORY_LIMIT_EXCEEDED))
    else if !s.worker.alive then (s, ErrorTriple(SESSION_CRASHED))
    else if !s.channelsOpen then (s, ErrorTriple(INTERNAL_SERVER_ERROR))
    else
      var (w1, reply) := WorkerStep(s.worker, Code(code), interp);
      var s1 := s.(worker := w1, memoryExceeded := w.monitorFired);
      if w.arrival.ChannelFault? then (s1, ErrorTriple(INTERNAL_SERVER_ERROR))
      else if w.arrival.InTime? && reply.Some? then (s1, reply.value)
      else
        (s1.(worker := w1.(alive := false)),
         ErrorTriple(if w.monitorFired then MEMORY_LIMIT_EXCEEDED else EXECUTION_TIMEOUT))
  }

  /** `terminate`: the worker is stopped and both channels are closed. */
  function TerminateSpec(s: SessionState): (t: SessionState)
    ensures !t.worker.alive && !t.channelsOpen
    ensures t.lastAccessed == s.lastAccessed && t.memoryExceeded == s.memoryExceeded
    ensures t.worker.namespace == s.worker.namespace
  {
    s.(worker := s.worker.(alive := false), channelsOpen := false)
  }

  /** A flagged session answers with the memory error before anything else,
      and nothing changes. */
  lemma MemoryFlagAnswersFirst(s: SessionState, code: string, interp: Interpreter, w: Wait)
    requires s.memoryExceeded
    ensures ExecuteSpec(s, code, interp, w) == (s, ErrorTriple(MEMORY_LIMIT_EXCEEDED))
  {
  }

  /** An unflagged session whose worker is gone answers "session crashed"
      without sending the code. */
  lemma DeadWorkerAnswersCrashed(s: SessionState, code: string, interp: Interpreter, w: Wait)
    requires !s.memoryExceeded && !s.worker.alive
    ensures ExecuteSpec(s, code, interp, w) == (s, ErrorTriple(SESSION_CRASHED))
  {
  }

  /** A reply that arrives in time is returned exactly as the worker shaped
      it, whatever the memory monitor did meanwhile; the worker keeps the
      namespace the code left behind. */
  lemma InTimeReplyPassesThrough(s: SessionState, code: string, interp: Interpreter, w: Wait)
    requires !s.memoryExceeded && s.worker.alive && s.channelsOpen
    requires w.arrival.InTime? && !interp(s.worker.namespace, code).Exited?
    ensures var (s1, r) := ExecuteSpec(s, code, interp, w);
      && Some(r) == ShapeReply(interp(s.worker.namespace, code))
      && r.error.None?
      && s1.worker.alive && s1.worker.namespace == interp(s.worker.namespace, code).after
      && s1.memoryExceeded == w.monitorFired
  {
  }

  /** When no reply arrives in time the worker is stopped, and the answer is
      the memory error if the monitor flagged the session during the wait,
      the timeout otherwise. */
  lemma MissedReplyStopsWorker(s: SessionState, code: string, interp: Interpreter, w: Wait)
    requires !s.memoryExceeded && s.worker.alive && s.channelsOpen
    requires w.arrival.TooLate? || (w.arrival.InTime? && interp(s.worker.namespace, code).Exited?)
    ensures var (s1, r) := ExecuteSpec(s, code, interp, w);
      && !s1.worker.alive
      && r == ErrorTriple(if w.monitorFired then MEMORY_LIMIT_EXCEEDED else EXECUTION_TIMEOUT)
  {
  }

  /** Every answer of `execute` is one of the classified errors alone, or the
      worker's own error-free reply. */
  lemma {:induction false} ExecuteOutcomes(s: SessionState, code: string, interp: Interpreter, w: Wait)
    ensures var (_, r) := ExecuteSpec(s, code, interp, w);
      || r.error.None?
      || (r.stdout.None? && r.stderr.None?
          && r.error.value in {MEMORY_LIMIT_EXCEEDED, SESSION_CRASHED, EXECUTION_TIMEOUT, INTERNAL_SERVER_ERROR})
  {
    if !s.memoryExceeded && s.worker.alive && s.channelsOpen {
      WorkerStepReplies(s.worker, Code(code), interp);
    }
  }

  /** Hence every answer passes the response's mutual-exclusion check. */
  lemma {:induction false} ExecuteAnswersAreValidResponses(s: SessionState, code: string, interp: Interpreter, w: Wait)
    ensures var (_, r) := ExecuteSpec(s, code, interp, w);
      Response.CheckMutualExclusivity(Response.FromTriple(r)) == Ok(Response.FromTriple(r))
  {
    ExecuteOutcomes(s, code, interp, w);
  }

  /** `execute` never touches the access time, and a worker once gone stays
      gone. */
  lemma ExecuteKeepsAccessTimeAndDeath(s: SessionState, code: string, interp: Interpreter, w: Wait)
    ensures var (s1, _) := ExecuteSpec(s, code, interp, w);
      && s1.lastAccessed == s.lastAccessed
      && (!s.worker.alive ==> s1 == s)
      && (s.memoryExceeded ==> s1.memoryExceeded)
  {
  }

  /** After a timeout the session is spent: the next call answers "session
      crashed", unless the memory callback sets the flag in between (`flag`),
      and then it answers the memory error. Nothing is sent either way. */
  lemma {:induction false} TimeoutIsTerminal(s: SessionState, code: string, interp: Interpreter, w: Wait,
                                             flag: bool, code2: string, interp2: Interpreter, w2: Wait)
    requires ExecuteSpec(s, code, interp, w).1 == ErrorTriple(EXECUTION_TIMEOUT)
    ensures var s1 := ExecuteSpec(s, code, interp, w).0;
      && ExecuteSpec(s1, code2, interp2, w2) == (s1, ErrorTriple(SESSION_CRASHED))
      && ExecuteSpec(s1.(memoryExceeded := flag), code2, interp2, w2)
         == (s1.(memoryExceeded := flag), ErrorTriple(if flag then MEMORY_LIMIT_EXCEEDED else SESSION_CRASHED))
  {
    var s1 := ExecuteSpec(s, code, interp, w).0;
    assert !s1.worker.alive && !s1.memoryExceeded;
  }

  /** The flag is never cleared: once a call answers the memory error, every
      later call answers it again, without touching the session. */
  lemma {:induction false} MemoryErrorIsSticky(s: SessionState, code: string, interp: Interpreter, w: Wait,
                                               code2: string, interp2: Interpreter, w2: Wait)
    requires ExecuteSpec(s, code, interp, w).1 == ErrorTriple(MEMORY_LIMIT_EXCEEDED)
    ensures var s1 := ExecuteSpec(s, code, interp, w).0;
      ExecuteSpec(s1, code2, interp2, w2) == (s1, ErrorTriple(MEMORY_LIMIT_EXCEEDED))
  {
    if !s.memoryExceeded && s.worker.alive && s.channelsOpen {
      WorkerStepReplies(s.worker, Code(code), interp);
    }
  }

  /** The two ways to "Internal server error": the channel fails while the
      supervisor waits for the reply, or the code is sent on a closed
      channel while the worker still runs. */
  lemma ChannelFailuresAnswerInternalError(s: SessionState, code: string, interp: Interpreter, w: Wait)
    ensures !s.memoryExceeded && s.worker.alive && s.channelsOpen && w.arrival.ChannelFault? ==>
      ExecuteSpec(s, code, interp, w).1 == ErrorTriple(INTERNAL_SERVER_ERROR)
    ensures !s.memoryExceeded && s.worker.alive && !s.channelsOpen ==>
      ExecuteSpec(s, code, interp, w) == (s, ErrorTriple(INTERNAL_SERVER_ERROR))
  {
  }

  /** The success path does not look at the flag again: a monitor firing
      during a call whose reply arrives in time is reported only by the next
      call. */
  lemma {:induction false} LateFlagSurfacesNextCall(s: SessionState, code: string, interp: Interpreter, w: Wait,
                                                    code2: string, interp2: Interpreter, w2: Wait)
    requires !s.memoryExceeded && s.worker.alive && s.channelsOpen
    requires w.arrival.InTime? && w.monitorFired && !interp(s.worker.namespace, code).Exited?
    ensures var (s1, r) := ExecuteSpec(s, code, interp, w);
      && r.error.None?
      && ExecuteSpec(s1, code2, interp2, w2) == (s1, ErrorTriple(MEMORY_LIMIT_EXCEEDED))
  {
    InTimeReplyPassesThrough(s, code, interp, w);
  }

  /** A terminated session never sends code again: it answers with the memory
      error or "session crashed". */
  lemma TerminatedSessionRefuses(s: SessionState, code: string, interp: Interpreter, w: Wait)
    ensures var t := TerminateSpec(s);
      var (t1, r) := ExecuteSpec(t, code, interp, w);
      t1 == t && (r == ErrorTriple(MEMORY_LIMIT_EXCEEDED) || r == ErrorTriple(SESSION_CRASHED))
  {
  }

  /** The worker process ending on its own between two calls: a signal, the
      kernel's OOM killer, or a thread of the user's code calling `os._exit`.
      Nothing else about the session changes. */
  function WorkerDies(s: SessionState): (t: SessionState)
    ensures !t.worker.alive
    ensures t.lastAccessed == s.lastAccessed && t.memoryExceeded == s.memoryExceeded
    ensures t.channelsOpen == s.channelsOpen
    ensures t.worker.namespace == s.worker.namespace && t.worker.addressSpaceLimit == s.worker.addressSpaceLimit
  {
    s.(worker := s.worker.(alive := false))
  }

  /** `execute` asks `is_alive()` on every call, so a worker that died after
      answering in time is noticed by the next call: with the flag clear it
      answers "session crashed" without sending the code. */
  lemma {:induction false} DeathBetweenCallsAnswersCrashed(s: SessionState, code: string, interp: Interpreter, w: Wait,
                                                          code2: string, interp2: Interpreter, w2: Wait)
    requires !s.memoryExceeded && s.worker.alive && s.channelsOpen
    requires w.arrival.InTime? && !w.monitorFired && !interp(s.worker.namespace, code).Exited?
    ensures var (s1, r) := ExecuteSpec(s, code, interp, w);
      && r.error.None?
      && s1.worker.alive
      && ExecuteSpec(WorkerDies(s1), code2, interp2, w2) == (WorkerDies(s1), ErrorTriple(SESSION_CRASHED))
  {
    InTimeReplyPassesThrough(s, code, interp, w);
  }

  /** A new session sends its first code to the worker, evaluated against the
      interpreter's initial locals. It answers with the worker's reply when
      that arrives in time, and otherwise with the memory error, the timeout
      or "Internal server error"; never "session crashed". A worker still
      running afterwards holds the namespace the code left behind. */
  lemma {:induction false} FreshSessionRunsCode(now: int, isLinux: bool, setrlimitAccepted: bool,
                                               code: string, interp: Interpreter, w: Wait)
    ensures var s := InitialSession(now, isLinux, setrlimitAccepted);
      var (s1, r) := ExecuteSpec(s, code, interp, w);
      && r != ErrorTriple(SESSION_CRASHED)
      && s1.worker.addressSpaceLimit == s.worker.addressSpaceLimit
      && (s1.worker.alive ==> s1.worker.namespace == interp(INITIAL_LOCALS, code).after)
      && (w.arrival.InTime? && !interp(INITIAL_LOCALS, code).Exited? ==> Some(r) == ShapeReply(interp(INITIAL_LOCALS, code)))
      && (r.error.Some? ==> r.error.value in {MEMORY_LIMIT_EXCEEDED, EXECUTION_TIMEOUT, INTERNAL_SERVER_ERROR})
  {
    var s := InitialSession(now, isLinux, setrlimitAccepted);
    WorkerStepReplies(s.worker, Code(code), interp);
  }

  class SessionProcess {
    var lastAccessed: int
    var memoryExceeded: bool
    var channelsOpen: bool
    const worker: WorkerProcess

    function Snapshot(): SessionState
      reads this, worker
    {
      SessionState(lastAccessed, memoryExceeded, channelsOpen, worker.State())
    }

    /** `__init__`: stamp the creation time, clear the flag, open both
        channels and start the worker. */
    constructor (now: int, isLinux: bool, setrlimitAccepted: bool)
      ensures fresh(worker)
      ensures Snapshot() == InitialSession(now, isLinux, setrlimitAccepted)
    {
      lastAccessed := now;
      memoryExceeded := false;
      channelsOpen := true;
      worker := new WorkerProcess(isLinux, setrlimitAccepted);
    }

    /** The callback handed to the memory monitor. */
    method OnMemoryExceeded()
      modifies this
      ensures Snapshot() == old(Snapshot()).(memoryExceeded := true)
    {
      memoryExceeded := true;
    }

    /** `execute`: the flag, then liveness, then send the code and wait for
        the reply; a missed reply stops the worker. */
    method Execute(code: string, interp: Interpreter, w: Wait) returns (r: Triple)
      modifies this, worker
      ensures (Snapshot(), r) == ExecuteSpec(old(Snapshot()), code, interp, w)
    {
      if memoryExceeded {
        return ErrorTriple(MEMORY_LIMIT_EXCEEDED);
      }
      if !worker.alive {
        return ErrorTriple(SESSION_CRASHED);
      }
      if !channelsOpen {
        // Sending on a closed channel raises, and the outer handler answers.
        return ErrorTriple(INTERNAL_SERVER_ERROR);
      }
      var reply := worker.Step(Code(code), interp);
      if w.monitorFired {
        OnMemoryExceeded();
      }
      if w.arrival.ChannelFault? {
        return ErrorTriple(INTERNAL_SERVER_ERROR);
      }
      if w.arrival.InTime? && reply.Some? {
        return reply.value;
      }
      var _ := worker.Stop(w.exitsWithinGrace);
      if memoryExceeded {
        return ErrorTriple(MEMORY_LIMIT_EXCEEDED);
      }
      return ErrorTriple(EXECUTION_TIMEOUT);
    }

    /** `terminate`: stop the worker if it is running, then close both
        channels. */
    method Terminate(exitsWithinGrace: bool)
      modifies this, worker
      ensures Snapshot() == TerminateSpec(old(Snapshot()))
    {
      if worker.alive {
        var _ := worker.Stop(exitsWithinGrace);
      }
      channelsOpen := false;
    }
  }
}

=== FILE: request.dfy ===
/** The request model of the execute endpoint: one required `code` field whose
    length is bounded on both sides. */
module Request {
  import opened Common

  const MIN_CODE_LENGTH := 1
  const MAX_CODE_LENGTH := 10000

  datatype ExecuteRequest = ExecuteRequest(code: string)

  datatype RequestError = MissingCode | CodeTooShort | CodeTooLong

  /** Validation of the request body; `None` stands for a body without `code`,
      since the field has no default. */
  function ParseRequest(code: Option<string>): (r: Result<ExecuteRequest, RequestError>)
    ensures r.Ok? <==> code.Some? && MIN_CODE_LENGTH <= |code.value| <= MAX_CODE_LENGTH
    ensures r.Ok? ==> r.value.code == code.value
    ensures r == Err(MissingCode) <==> code.None?
    ensures r == Err(CodeTooShort) <==> code == Some("")
    ensures r == Err(CodeTooLong) <==> code.Some? && |code.value| > MAX_CODE_LENGTH
  {
    match code
    case None => Err(MissingCode)
    case Some(c) =>
      if |c| < MIN_CODE_LENGTH then Err(CodeTooShort)
      else if |c| > MAX_CODE_LENGTH then Err(CodeTooLong)
      else Ok(ExecuteRequest(c))
  }

  /** Both bounds are inclusive: 1 and 10000 characters pass, 0 and 10001 do not. */
  lemma LengthBoundsInclusive(c: string)
    ensures |c| == 1 || |c| == 10000 ==> ParseRequest(Some(c)).Ok?
    ensures |c| == 0 ==> ParseRequest(Some(c)) == Err(CodeTooShort)
    ensures |c| == 10001 ==> ParseRequest(Some(c)) == Err(CodeTooLong)
  {
  }
}

=== FILE: response.dfy ===
/** The response model of the execute endpoint and its after-validation hook,
    which refuses a response carrying both an error classification and output. */
module Response {
  import opened Common

  datatype ExecuteResponse = ExecuteResponse(stdout: Option<string>, stderr: Option<string>, error: Option<string>)

  /** Every field defaults to `None`. */
  const DEFAULT_RESPONSE := ExecuteResponse(None, None, None)

  const MUTUAL_EXCLUSION_MESSAGE := "Cannot have both 'error' and 'stdout/stderr' in response"

  /** The response built from a session's triple. */
  function FromTriple(t: Triple): (r: ExecuteResponse)
    ensures r.stdout == t.stdout && r.stderr == t.stderr && r.error == t.error
  {
    ExecuteResponse(t.stdout, t.stderr, t.error)
  }

  /** `check_mutual_exclusivity`: the response itself when it is well formed,
      otherwise the validation error. A response is well formed exactly when it
      carries no error, or carries neither stdout nor stderr. */
  function CheckMutualExclusivity(r: ExecuteResponse): (v: Result<ExecuteResponse, string>)
    ensures v.Ok? <==> (r.error.None? || (r.stdout.None? && r.stderr.None?))
    ensures v.Ok? ==> v.value == r
    ensures v.Err? ==> v.error == MUTUAL_EXCLUSION_MESSAGE
  {
    var hasError := r.error.Some?;
    var hasOutput := r.stdout.Some? || r.stderr.Some?;
    if hasError && hasOutput then Err(MUTUAL_EXCLUSION_MESSAGE) else Ok(r)
  }

  predicate Accepted(r: ExecuteResponse) {
    CheckMutualExclusivity(r).Ok?
  }

  /** The response with every field left at its default is accepted. */
  lemma DefaultResponseAccepted()
    ensures CheckMutualExclusivity(DEFAULT_RESPONSE) == Ok(DEFAULT_RESPONSE)
  {
  }

  /** The four shapes the service produces: an error alone, and any
      combination of stdout and stderr without an error. */
  lemma ErrorAloneOrOutputAloneAccepted(out: Option<string>, err: Option<string>, e: string)
    ensures Accepted(ExecuteResponse(None, None, Some(e)))
    ensures Accepted(ExecuteResponse(out, err, None))
    ensures out.Some? || err.Some? ==> !Accepted(ExecuteResponse(out, err, Some(e)))
  {
  }
}

=== FILE: sandbox.dfy ===
/** The capability filter: rebinding the general file-open primitive, the
    mutating `os` operations and the connection-making network primitives of an
    interpreter so that calling them raises a permission error. */
module Sandbox {
  import opened Common

  /** What a name is bound to: the original primitive, a stub that always
      raises a permission error, or the guarded replacement for `open`. */
  datatype Binding = Real(primitive: string) | Stub | SafeOpen

  /** A module's attribute table, or a builtins dictionary. */
  type Table = map<string, Binding>

  const PERMISSION_DENIED := "[Errno 13] Permission denied"
  const DENIED_RESOURCE_HEAD := PERMISSION_DENIED + ": '"
  const PROC_PREFIX := "/proc/"
  const DEFAULT_OPEN_MODE := "r"

  /** The `os` operations replaced by stubs, in the order they are replaced. */
  const FILESYSTEM_BLACKLIST: seq<string> := [
    "remove", "unlink", "rmdir", "removedirs",
    "mkdir", "makedirs", "mknod",
    "rename", "renames", "replace", "chmod", "chown", "lchown",
    "open", "truncate",
    "listdir",
    "link", "symlink"
  ]

  /** The text of the permission error a stub raises when called with the
      given positional arguments (each as `str` renders it). */
  function DeniedMessage(args: seq<string>): (msg: string)
    ensures PERMISSION_DENIED <= msg
    ensures |args| == 0 ==> msg == PERMISSION_DENIED
  {
    if |args| > 0 then DENIED_RESOURCE_HEAD + args[0] + "'" else PERMISSION_DENIED
  }

  /** Reads back the resource a permission message names, if it names one. */
  function DeniedResource(msg: string): (r: Option<string>)
    ensures r.Some? ==> DENIED_RESOURCE_HEAD + r.value + "'" == msg
  {
    var n := |DENIED_RESOURCE_HEAD|;
    if |msg| >= n + 1 && msg[..n] == DENIED_RESOURCE_HEAD && msg[|msg| - 1] == '\''
    then
      var res := msg[n..|msg| - 1];
      assert msg == msg[..n] + res + [msg[|msg| - 1]];
      Some(res)
    else None
  }

  /** The message names the first argument exactly, and names nothing when
      the stub was called without arguments. */
  lemma {:induction false} DeniedMessageNamesResource(args: seq<string>)
    ensures DeniedResource(DeniedMessage(args)) == if |args| > 0 then Some(args[0]) else None
  {
    var msg := DeniedMessage(args);
    var n := |DENIED_RESOURCE_HEAD|;
    if |args| > 0 {
      assert msg[..n] == DENIED_RESOURCE_HEAD;
      assert msg[n..|msg| - 1] == args[0];
    } else {
      assert |msg| < n + 1;
    }
  }

  /** The open gate: a path under `/proc/`, opened in a mode that reads and
      neither writes, appends nor updates. */
  predicate OpenAllowed(filepath: string, mode: string) {
    PROC_PREFIX <= filepath && 'r' in mode && 'w' !in mode && 'a' !in mode && '+' !in mode
  }

  /** What calling a binding does. */
  datatype CallOutcome =
    | Performed(primitive: string, args: seq<string>)
    | PermissionDenied(message: string)
    | MissingArgument

  /** Calling a binding with positional arguments. `SafeOpen` takes the file
      first and the mode second, defaulting to `"r"`; it hands an allowed call
      to the real `open` unchanged. */
  function Invoke(b: Binding, args: seq<string>): (o: CallOutcome)
    ensures b.Stub? ==> o == PermissionDenied(DeniedMessage(args))
    ensures b.SafeOpen? && |args| > 0 ==> o.Performed? || o == PermissionDenied(DeniedMessage(args[..1]))
  {
    match b
    case Real(p) => Performed(p, args)
    case Stub => PermissionDenied(DeniedMessage(args))
    case SafeOpen =>
      if |args| == 0 then MissingArgument
      else
        var mode := if |args| >= 2 then args[1] else DEFAULT_OPEN_MODE;
        if OpenAllowed(args[0], mode) then Performed("open", args)
        else PermissionDenied(DeniedMessage([args[0]]))
  }

  /** `safe_open` delegates exactly when the gate allows the call, and
      otherwise raises the same error a stub raises for that file. */
  lemma SafeOpenDelegatesExactlyWhenAllowed(file: string, mode: Option<string>)
    ensures var args := if mode.Some? then [file, mode.value] else [file];
      && (Invoke(SafeOpen, args) == Invoke(Real("open"), args) <==> OpenAllowed(file, mode.GetOr(DEFAULT_OPEN_MODE)))
      && (!OpenAllowed(file, mode.GetOr(DEFAULT_OPEN_MODE)) ==> Invoke(SafeOpen, args) == Invoke(Stub, args))
  {
  }

  /** With the default mode only `/proc/` paths open; writing, appending or
      updating modes are refused everywhere, `/proc/` included. */
  lemma OpenGateExamples(file: string)
    ensures OpenAllowed(file, DEFAULT_OPEN_MODE) <==> PROC_PREFIX <= file
    ensures OpenAllowed(file, "rb") <==> PROC_PREFIX <= file
    ensures !OpenAllowed(file, "w") && !OpenAllowed(file, "a") && !OpenAllowed(file, "r+")
  {
    assert 'r' in DEFAULT_OPEN_MODE && 'r' in "rb";
    assert 'r' !in "w" && 'r' !in "a" && '+' in "r+";
  }

  /** `setattr(table, name, stub)` guarded by `hasattr(table, name)`. */
  function StubIfPresent(t: Table, name: string): (r: Table)
    ensures r.Keys == t.Keys
    ensures name in t ==> r[name] == Stub
    ensures forall k :: k in t && k != name ==> r[k] == t[k]
  {
    if name in t then t[name := Stub] else t
  }

  /** Every name of `t` that `names` lists, rebound to a stub; names `t`
      lacks are skipped and no name is added. */
  function StubListed(t: Table, names: seq<string>): (r: Table)
    ensures r.Keys == t.Keys
  {
    map k | k in t :: if k in names then Stub else t[k]
  }

  /** `namespace[name] = module` for every name of `names`, each bound to the
      module of that name; every other entry is kept. */
  function BindModules(ns: Namespace, names: set<string>): (r: Namespace)
    ensures r.Keys == ns.Keys + names
  {
    map k | k in ns.Keys + names :: if k in names then Module(k) else ns[k]
  }

  /** Each listed name is bound to the module of that name, and every other
      entry keeps its value. */
  lemma BindModulesBinds(ns: Namespace, names: set<string>)
    ensures var r := BindModules(ns, names);
      && (forall k :: k in names ==> r[k] == Module(k))
      && (forall k :: k in ns && k !in names ==> r[k] == ns[k])
  {
  }

  lemma BindModuleOne(ns: Namespace, name: string)
    ensures ns[name := Module(name)] == BindModules(ns, {name})
  {
  }

  lemma BindModulesTwice(ns: Namespace, a: set<string>, b: set<string>)
    ensures BindModules(BindModules(ns, a), b) == BindModules(ns, a + b)
  {
  }

  const FILESYSTEM_MODULES: set<string> := {"os", "pathlib"}

  /** Binding `os` and then `pathlib` binds the filesystem modules. */
  lemma BindFilesystemModules(ns: Namespace)
    ensures ns["os" := Module("os")]["pathlib" := Module("pathlib")] == BindModules(ns, FILESYSTEM_MODULES)
  {
    BindModuleOne(ns, "os");
    BindModuleOne(ns["os" := Module("os")], "pathlib");
    BindModulesTwice(ns, {"os"}, {"pathlib"});
    assert {"os"} + {"pathlib"} == FILESYSTEM_MODULES;
  }

  /** The modules the network half binds: `socket` always, `urllib` and `http`
      when they import. */
  function NetworkModules(urllibImportable: bool, httpImportable: bool): set<string> {
    {"socket"} + (if urllibImportable then {"urllib"} else {}) + (if httpImportable then {"http"} else {})
  }

  /** Binding `socket`, then `urllib` and `http` when they import, binds the
      network modules. */
  lemma BindNetworkModules(ns: Namespace, urllibImportable: bool, httpImportable: bool)
    ensures var n1 := ns["socket" := Module("socket")];
      var n2 := if urllibImportable then n1["urllib" := Module("urllib")] else n1;
      (if httpImportable then n2["http" := Module("http")] else n2)
        == BindModules(ns, NetworkModules(urllibImportable, httpImportable))
  {
    var n1 := ns["socket" := Module("socket")];
    BindModuleOne(ns, "socket");
    var bound: set<string> := {"socket"};
    var n2 := n1;
    if urllibImportable {
      BindModuleOne(n1, "urllib");
      BindModulesTwice(ns, bound, {"urllib"});
      n2 := n1["urllib" := Module("urllib")];
      bound := bound + {"urllib"};
    }
    if httpImportable {
      BindModuleOne(n2, "http");
      BindModulesTwice(ns, bound, {"http"});
      bound := bound + {"http"};
    }
    assert bound == NetworkModules(urllibImportable, httpImportable);
  }

  /** What the namespace's `__builtins__` is: a dictionary of its own; the
      builtins module's own attribute dictionary, which `exec` stores there
      once code has run, so that a write through it rebinds the module's
      attribute for the whole process; or the builtins module itself, or
      nothing. */
  datatype BuiltinsEntry = OwnDict(table: Table) | ModuleDict | ModuleOrMissing

  /** The state the filter rewrites: the execution namespace, its
      `__builtins__`, the builtins module, and the attribute tables of `os`,
      `socket`, `urllib.request` and `http.client`. */
  datatype Tables = Tables(
    namespace: Namespace,
    builtins: BuiltinsEntry,
    builtinsModule: Table,
    os: Table,
    socket: Table,
    urllibRequest: Table,
    httpClient: Table)

  /** The `open` that code evaluated in the namespace finds. */
  function BuiltinOpen(t: Tables): Option<Binding> {
    var b := if t.builtins.OwnDict? then t.builtins.table else t.builtinsModule;
    if "open" in b then Some(b["open"]) else None
  }

  /** `_block_filesystem`: `open` replaced in the builtins the namespace sees,
      the listed `os` attributes stubbed, `os` and `pathlib` bound. Unless the
      namespace has a builtins dictionary of its own, the replacement lands
      in the builtins module, process-wide. */
  function BlockFilesystemTables(t: Tables, blacklist: seq<string>): (r: Tables)
    ensures BuiltinOpen(r) == Some(SafeOpen)
    ensures t.builtins.OwnDict? ==> r.builtinsModule == t.builtinsModule
    ensures !t.builtins.OwnDict? ==> r.builtins == t.builtins && r.builtinsModule["open"] == SafeOpen
    ensures r.socket == t.socket && r.urllibRequest == t.urllibRequest && r.httpClient == t.httpClient
  {
    var t1 :=
      if t.builtins.OwnDict? then t.(builtins := OwnDict(t.builtins.table["open" := SafeOpen]))
      else t.(builtinsModule := t.builtinsModule["open" := SafeOpen]);
    t1.(os := StubListed(t.os, blacklist),
        namespace := BindModules(t.namespace, FILESYSTEM_MODULES))
  }

  function BlockNetworkTables(t: Tables, urllibImportable: bool, httpImportable: bool): (r: Tables)
    ensures r.os == t.os && r.builtins == t.builtins && r.builtinsModule == t.builtinsModule
  {
    var socket := StubIfPresent(StubIfPresent(t.socket["socket" := Stub], "create_connection"), "create_server");
    var urllibRequest := if urllibImportable then StubIfPresent(t.urllibRequest["urlopen" := Stub], "urlretrieve")
                         else t.urllibRequest;
    var httpClient := if httpImportable then t.httpClient["HTTPConnection" := Stub]["HTTPSConnection" := Stub]
                      else t.httpClient;
    t.(socket := socket, urllibRequest := urllibRequest, httpClient := httpClient,
       namespace := BindModules(t.namespace, NetworkModules(urllibImportable, httpImportable)))
  }

  /** `apply_sandbox_to_namespace`: the filesystem first, then the network. */
  function SandboxTables(t: Tables, blacklist: seq<string>, urllibImportable: bool, httpImportable: bool): Tables {
    BlockNetworkTables(BlockFilesystemTables(t, blacklist), urllibImportable, httpImportable)
  }

  /** After the filter, every blocked primitive raises the permission error
      naming its first argument, whatever it is called with. */
  lemma {:induction false} SandboxDeniesBlockedPrimitives(t: Tables, blacklist: seq<string>, urllibImportable: bool, httpImportable: bool,
                                                         args: seq<string>)
    ensures var s := SandboxTables(t, blacklist, urllibImportable, httpImportable);
      && BuiltinOpen(s) == Some(SafeOpen)
      && (forall name :: name in t.os && name in blacklist ==>
            name in s.os && Invoke(s.os[name], args) == PermissionDenied(DeniedMessage(args)))
      && "socket" in s.socket && Invoke(s.socket["socket"], args) == PermissionDenied(DeniedMessage(args))
      && (forall name :: name in t.socket && name in ["create_connection", "create_server"] ==>
            name in s.socket && s.socket[name] == Stub)
      && (urllibImportable ==> "urlopen" in s.urllibRequest && s.urllibRequest["urlopen"] == Stub
                               && ("urlretrieve" in t.urllibRequest ==> s.urllibRequest["urlretrieve"] == Stub))
      && (httpImportable ==> "HTTPConnection" in s.httpClient && s.httpClient["HTTPConnection"] == Stub
                             && "HTTPSConnection" in s.httpClient && s.httpClient["HTTPSConnection"] == Stub)
  {
    var f := BlockFilesystemTables(t, blacklist);
    var s := SandboxTables(t, blacklist, urllibImportable, httpImportable);
    assert s.os == f.os == StubListed(t.os, blacklist);
    assert BuiltinOpen(s) == BuiltinOpen(f);
  }

  /** The filter leaves alone every `os` attribute off the list and skips
      listed names `os` lacks; it adds no attribute to `os`. */
  lemma SandboxKeepsOtherOsAttributes(t: Tables, blacklist: seq<string>, urllibImportable: bool, httpImportable: bool)
    ensures var s := SandboxTables(t, blacklist, urllibImportable, httpImportable);
      && s.os.Keys == t.os.Keys
      && forall name :: name in t.os && name !in blacklist ==> s.os[name] == t.os[name]
  {
  }

  lemma StubListedStep(t: Table, names: seq<string>, i: nat)
    requires i < |names|
    ensures StubIfPresent(StubListed(t, names[..i]), names[i]) == StubListed(t, names[..i + 1])
  {
    assert names[..i + 1] == names[..i] + [names[i]];
  }

  /** Some `os` services the filter is meant to keep. */
  const SAFE_OS_SERVICES: seq<string> := ["getcwd", "cpu_count", "path", "getpid"]

  lemma SafeOsServicesUnlisted()
    ensures forall name :: name in SAFE_OS_SERVICES ==> name !in FILESYSTEM_BLACKLIST
  {
  }

  /** Read-only `os` services such as `getcwd`, `cpu_count` and the `path`
      submodule keep their original binding. */
  lemma SafeOsServicesSurvive(t: Tables, urllibImportable: bool, httpImportable: bool)
    ensures var s := SandboxTables(t, FILESYSTEM_BLACKLIST, urllibImportable, httpImportable);
      forall name :: name in t.os && name in SAFE_OS_SERVICES ==> s.os[name] == t.os[name]
  {
    SandboxKeepsOtherOsAttributes(t, FILESYSTEM_BLACKLIST, urllibImportable, httpImportable);
    SafeOsServicesUnlisted();
  }

  /** The modules the whole filter binds in the namespace. */
  function SandboxModules(urllibImportable: bool, httpImportable: bool): set<string> {
    FILESYSTEM_MODULES + NetworkModules(urllibImportable, httpImportable)
  }

  /** `os`, `pathlib` and `socket` are always bound, `urllib` and `http`
      exactly when they import, and nothing else. */
  lemma SandboxModulesListed(urllibImportable: bool, httpImportable: bool)
    ensures var m := SandboxModules(urllibImportable, httpImportable);
      && {"os", "pathlib", "socket"} <= m <= {"os", "pathlib", "socket", "urllib", "http"}
      && ("urllib" in m <==> urllibImportable)
      && ("http" in m <==> httpImportable)
  {
  }

  /** The namespace after the filter: every module it binds is bound to the
      module of that name (`pathlib` a plain reference to the unpatched
      module); every other name is kept. */
  lemma {:induction false} SandboxNamespaceKeys(t: Tables, blacklist: seq<string>, urllibImportable: bool, httpImportable: bool)
    ensures var ns := SandboxTables(t, blacklist, urllibImportable, httpImportable).namespace;
      var m := SandboxModules(urllibImportable, httpImportable);
      && ns.Keys == t.namespace.Keys + m
      && (forall k :: k in m ==> ns[k] == Module(k))
      && (forall k :: k in t.namespace && k !in m ==> ns[k] == t.namespace[k])
  {
    BindModulesTwice(t.namespace, FILESYSTEM_MODULES, NetworkModules(urllibImportable, httpImportable));
    BindModulesBinds(t.namespace, SandboxModules(urllibImportable, httpImportable));
  }

  /** Stubbing the same names again changes nothing. */
  lemma StubListedIdempotent(t: Table, names: seq<string>)
    ensures StubListed(StubListed(t, names), names) == StubListed(t, names)
  {
  }

  /** Binding the same modules again changes nothing. */
  lemma BindModulesIdempotent(ns: Namespace, names: set<string>)
    ensures BindModules(BindModules(ns, names), names) == BindModules(ns, names)
  {
    BindModulesTwice(ns, names, names);
    assert names + names == names;
  }

  /** The interpreter state the filter rewrites in place. Whether
      `urllib.request` and `http.client` import is fixed by the installation. */
  class Environment {
    var namespace: Namespace
    var builtins: BuiltinsEntry
    var builtinsModule: Table
    var os: Table
    var socket: Table
    var urllibRequest: Table
    var httpClient: Table
    const urllibImportable: bool
    const httpImportable: bool

    function Snapshot(): Tables
      reads this
    {
      Tables(namespace, builtins, builtinsModule, os, socket, urllibRequest, httpClient)
    }

    constructor (initial: Tables, urllibImportable: bool, httpImportable: bool)
      ensures Snapshot() == initial
      ensures this.urllibImportable == urllibImportable && this.httpImportable == httpImportable
    {
      namespace := initial.namespace;
      builtins := initial.builtins;
      builtinsModule := initial.builtinsModule;
      os := initial.os;
      socket := initial.socket;
      urllibRequest := initial.urllibRequest;
      httpClient := initial.httpClient;
      this.urllibImportable := urllibImportable;
      this.httpImportable := httpImportable;
    }

    /** `_block_filesystem`. */
    method BlockFilesystem()
      modifies this
      ensures Snapshot() == BlockFilesystemTables(old(Snapshot()), FILESYSTEM_BLACKLIST)
    {
      // The blacklist loop and the `open` replacement rewrite disjoint
      // tables; the loop is written first.
      ghost var os0 := os;
      for i := 0 to |FILESYSTEM_BLACKLIST|
        modifies this`os
        invariant os == StubListed(os0, FILESYSTEM_BLACKLIST[..i])
      {
        var funcName := FILESYSTEM_BLACKLIST[i];
        StubListedStep(os0, FILESYSTEM_BLACKLIST, i);
        os := StubIfPresent(os, funcName);
      }
      assert FILESYSTEM_BLACKLIST[..|FILESYSTEM_BLACKLIST|] == FILESYSTEM_BLACKLIST;
      match builtins {
        case OwnDict(d) => builtins := OwnDict(d["open" := SafeOpen]);
        case ModuleDict =>
          // The dictionary is the module's own: the write rebinds the module.
          builtinsModule := builtinsModule["open" := SafeOpen];
        case ModuleOrMissing => builtinsModule := builtinsModule["open" := SafeOpen];
      }
      BindFilesystemModules(namespace);
      namespace := namespace["os" := Module("os")];
      namespace := namespace["pathlib" := Module("pathlib")];
    }

    /** `_block_network`. */
    method BlockNetwork()
      modifies this
      ensures Snapshot() == BlockNetworkTables(old(Snapshot()), urllibImportable, httpImportable)
    {
      socket := socket["socket" := Stub];
      socket := StubIfPresent(socket, "create_connection");
      socket := StubIfPresent(socket, "create_server");
      BindNetworkModules(namespace, urllibImportable, httpImportable);
      namespace := namespace["socket" := Module("socket")];
      if urllibImportable {
        urllibRequest := urllibRequest["urlopen" := Stub];
        urllibRequest := StubIfPresent(urllibRequest, "urlretrieve");
        namespace := namespace["urllib" := Module("urllib")];
      }
      if httpImportable {
        httpClient := httpClient["HTTPConnection" := Stub];
        httpClient := httpClient["HTTPSConnection" := Stub];
        namespace := namespace["http" := Module("http")];
      }
    }

    /** `apply_sandbox_to_namespace`. */
    method ApplySandboxToNamespace()
      modifies this
      ensures Snapshot() == SandboxTables(old(Snapshot()), FILESYSTEM_BLACKLIST, urllibImportable, httpImportable)
    {
      BlockFilesystem();
      BlockNetwork();
    }
  }
}
